=== FILE: README.md ===
# statfs record normalisation, modelled in Dafny

`statfs.c` is a CPython extension. It turns the platform's native
`struct statfs` into a Python named tuple with one fixed set of 31 fields,
whatever the platform. Four layouts are known: FreeBSD, 64-bit-inode
Darwin, 32-bit-inode Darwin, and an "unknown" layout that has only the
common members. The build script defines the `HAVE_*` macros only for
Darwin and FreeBSD, so on the unknown layout every entry point raises
`NotImplementedError` (statfs.c:496-503 and its siblings). There only the
`model` string and `valid_indices` are observable, and the model's build
for that layout (`NoExt`) describes code no caller reaches. This project
models the core of that normalisation:

- **The field catalogue** `statfs_member` and the platform filter of
  `prepare_statfs` (module `Schema`). Each of the 31 rows has a field name
  and an availability tag (`-`, `F`, `D`, `d`). The tag scan picks the
  platform's `valid_members` and `valid_indices`.
- **The native struct and the conversions** (module `Native`). Each member
  has its `PyLong_From*` or `PyUnicode_FromString` conversion. The
  casts to `long`, `unsigned long` and `unsigned long long` are written
  out as 64-bit wrap-around, the widths of an LP64 target (module
  `Values`). The native struct's fixed arrays have their C lengths, and
  its character buffers hold a NUL, by type. The one exception is the
  64-bit Darwin `f_reserved`: its length `rcnt` comes from the native
  type, and the model only bounds it by 8, the room in `reservedv`.
- **`build_statfs`** with `statfs_init`, `statfs_fix` and `statfs_exit`
  (modules `Plan`, `Builder`, `Record`).
  - The conversion lines run in source order: the universal block first,
    then the block compiled in for the platform. The first failing line
    jumps to `exit`.
  - The fix fills every platform-only slot that is still NULL with `None`.
  - The 31 values move into the argument tuple, and the record constructor
    is called with it.
  - `statfs_exit` releases everything still held.
- **The collection loops** of `getfsstat` and `getmntinfo` (module
  `Collect`). Both loops are identical. The list is allocated, then one
  record is built per mounted file system. The first record that fails
  ends the loop and releases the list together with every record already
  moved into it.

Allocation failure is an oracle: `failing` is the set of allocation-attempt
numbers the allocator refuses. A counter `next` numbers the attempts.
Every object carries `parts`, the multiset of allocation ids it keeps
alive. With that bookkeeping the ownership promise of the C code can be
stated exactly: every object allocated during a call is either released
before the call returns or owned by what it returns, and exactly once
(`freed + kept == Fresh(start, next)`).

`PyUnicode_FromString` also fails on bytes that are not well-formed UTF-8.
The model decodes strictly, as in Table 3-7 of the Unicode Standard.

The headline property is the cross-check between the tag table and the
builder (`Plan.CatalogueAgrees`, `Record.RecordMatchesCatalogue`). On
every platform, a slot of the record holds a converted member exactly
when its index is one of the platform's `valid_indices`. Every other slot
holds `None`.

## Model

| member | source | states |
|---|---|---|
| Values.ToUnsigned64 | statfs.c:336-337 | the cast to `unsigned long` / `unsigned long long` lands in [0, 2^64), is congruent to the native value modulo 2^64, and leaves in-range values unchanged |
| Values.ToSigned64 | statfs.c:335 | the cast to `long` lands in [-2^63, 2^63), is congruent modulo 2^64, and leaves in-range values unchanged |
| Values.CString | statfs.c:334 | `PyUnicode_FromString` reads the prefix of the buffer before its first NUL: a prefix with no NUL, followed by the NUL when it is shorter than the buffer |
| Native.ConvertWord | statfs.c:335-337 | `PyLong_FromLong` yields a signed int of the `long` cast, and exactly the unsigned conversions yield an unsigned int, of the unsigned cast |
| Native.Convert | statfs.c:334-348 | a converted member is never None; a scalar member becomes the int of its `PyLong_From*` conversion; text is the C string; an array member becomes a tuple of its converted elements, in order |
| Native.ConversionTable | statfs.c:339-410 | the conversion table (`Native.NativeMember`): exactly the five character buffers go through `PyUnicode_FromString`, exactly the four arrays become tuples, `owner`, `fsid`, `otype`, `oflags`, `reserved1`-`reserved4` use `PyLong_FromLong`, `version`, `namemax`, `flags_ext`, `fssubtype`, `reserved` use `PyLong_FromUnsignedLong`, and every other member `PyLong_FromUnsignedLongLong` |
| Values.AsciiIsValidUtf8 | statfs.c:334 | an all-ASCII string always decodes, so an ASCII mount name never makes `PyUnicode_FromString` fail |
| Schema.ModelName | statfs.c:688-698 | the `model` label is "unknown" exactly for the layout without platform members |
| Schema.ModelNameInjective | statfs.c:688-698 | two platforms get the same `model` label only if they are the same platform, so the label identifies the layout |
| Schema.EntryTagKnown | statfs.c:94-132 | every catalogue tag is one of `-`, `F`, `d`, `D` |
| Schema.EntryNamesDistinct | statfs.c:94-132 | no two catalogue rows share a field name, as the `namedtuple` built from them (statfs.c:706-716) requires |
| Schema.ScanTag | statfs.c:728-746 | the tag scan ends on a non-NUL character exactly when some character of the tag admits the platform, and that character is in the tag and admits it |
| Schema.PrepareValid | statfs.c:725-752 | the `valid` pass yields exactly `valid_indices`, with each index's catalogue name alongside, at most 31 of them |
| Schema.ValidIndicesMembers | statfs.c:725-752 | an index is in `valid_indices` exactly when it is a catalogue index whose tag admits the platform |
| Schema.ValidFromAscending | statfs.c:725-752 | `valid_indices` is strictly increasing and lies within the catalogue, so it keeps catalogue order |
| Schema.EntryTagHasNoNul | statfs.c:94-132 | no catalogue tag contains a NUL, so the scan reads each whole tag |
| Plan.CatalogueAgrees | statfs.c:94-132 | row by row, the catalogue name is the native member's name, and a field is converted on a platform exactly when its tag admits that platform |
| Plan.LayoutMatchesPlan | statfs.c:339-411 | a native struct has a member exactly for the fields its platform's conversion lines convert |
| Plan.PlanNoDup | statfs.c:339-411 | no member is converted twice on any platform |
| Builder.Init | statfs.c:182-233 | `statfs_init` leaves all 31 slots and the scratch entries NULL, so nothing is held |
| Builder.FillScratch | statfs.c:386-389 | the element loop of an array member succeeds exactly when all of its attempts succeed, and then takes one attempt per element |
| Builder.FillScratchOwns | statfs.c:386-389 | the element loop keeps alive exactly the objects its attempts allocated |
| Builder.FillScratchContents | statfs.c:386-389 | after a successful element loop the scratch entries hold the converted elements in order |
| Builder.StepOwns | statfs.c:334-348 | one conversion line keeps every object it allocates and loses nothing already held |
| Builder.StepResult | statfs.c:334-348 | one conversion line succeeds exactly when its text decodes and all its attempts succeed; it then stores the converted member in its own slot only, and on failure changes no slot |
| Builder.RunPlanSkips | statfs.c:334-337 | after the first failing line (`goto exit`) no further line runs |
| Builder.RunPlanOwns | statfs.c:339-411 | the conversion lines together keep exactly the objects they allocate |
| Builder.PlanDecodesMeans | statfs.c:339-411 | the decode condition of the conversion lines holds exactly when every planned member decodes |
| Builder.RunPlanOutcome | statfs.c:339-411 | the conversion lines succeed exactly when every member converts and every attempt succeeds, taking the plan's attempt count |
| Builder.RunPlanSlot | statfs.c:339-411 | after successful conversion lines, each planned slot holds its converted member and every other slot is unchanged |
| Record.FixSlot | statfs.c:288-317 | `statfs_fix` puts None exactly into the listed slots that are still NULL and leaves every other slot as it was |
| Record.FixKeepsParts | statfs.c:288-317 | the fix changes nothing that `statfs_exit` releases, because None is never allocated |
| Record.FixCovers | statfs.c:288-317 | every field is either converted on every platform or listed for the fix, so no slot is NULL after a successful conversion |
| Record.ConvertedOwns | statfs.c:235-286 | what `statfs_exit` releases after the conversion lines is exactly what they allocated |
| Record.FinishOwns | statfs.c:417-470 | with `Py_DECREF(args)` the tail releases or hands over every value and every allocation exactly once |
| Record.FinishOutcome | statfs.c:417-467 | the tail returns a record exactly when the argument tuple and the record are both allocated; the record holds the 31 values in argument order |
| Record.BuildStatfsOwns | statfs.c:319-471 | in the corrected `build_statfs` (with `Py_DECREF(args)` at `exit`), every allocation is released before it returns or owned by the returned record, exactly once |
| Record.BuildStatfsOutcome | statfs.c:319-471 | `build_statfs` returns a record exactly when every member converts and every attempt succeeds; the record holds each member's converted value, or None where the layout lacks the member |
| Record.AsWrittenSameRecord | statfs.c:418-470 | the builder as written returns the same record and takes the same attempts as the corrected one |
| Record.FinishAsWrittenLeaks | statfs.c:418-470 | the tail as written releases nothing; compared with the corrected tail it loses the argument tuple, and on constructor failure the tuple and all 31 values; on success the lost tuple holds the record's 31 values and keeps alive everything the record does except the record's own allocation, so the values outlive the record |
| Record.ArgsLeakOnSuccess | statfs.c:418-470 | as written, a successful build leaves the argument tuple's allocation neither released nor owned by the record |
| Record.ArgsLeakOnConstructorFailure | statfs.c:418-470 | as written, when only the constructor call fails nothing at all is released, although the tuple was allocated |
| Record.ArraySlotSizes | statfs.c:341-410 | an array member becomes a tuple as long as its C array: 2 for `f_fsid` and `f_reserved2`, 4 for `f_reserved4`, and `rcnt`, the native array's own length and at most 8, for the 64-bit Darwin `f_reserved` |
| Record.TextSlotEndsAtNul | statfs.c:351-353 | a text member is the string before its buffer's terminating NUL, and that NUL lies inside the buffer |
| Record.RecordMatchesCatalogue | statfs.c:94-132 | a record slot is not None exactly when its index is one of the platform's `valid_indices` |
| Record.BuiltMatchesCatalogue | statfs.c:319-471 | every record `build_statfs` returns is a 31-item tuple whose non-None items are exactly the platform's valid indices |
| Collect.BuildRecord | statfs.c:578 | one call of the corrected `build_statfs` in the loop: ownership accounted for, and a record exactly when that entry converts and its attempts succeed |
| Collect.CollectAdvance | statfs.c:576-581 | a record that builds moves into the list: the records so far are the expected ones and every attempt so far is accounted for |
| Collect.CollectAbort | statfs.c:583-589 | a record that fails ends the loop: the list and every record in it are released, and the collection as a whole cannot succeed |
| Collect.CollectDone | statfs.c:583-592 | after the last entry the list holds every expected record, in order, and every attempt succeeded |
| Collect.CollectRecords | statfs.c:574-592 | the call returns a list exactly when the list and every record can be built; the list then holds each entry's record in order; otherwise the loop stops at the first record whose `build_statfs` returns NULL, after every earlier record built, and makes no attempt after it (`StopsAt`); with the corrected `build_statfs`, in every case each allocation is released or owned by the list exactly once |

The `getmntinfo` loop (statfs.c:633-656) is the same code as the
`getfsstat` loop (statfs.c:574-592). `Collect.CollectRecords` models both.

## Left out

- Obtaining the native entries is not modelled. That covers `getfsstat`,
  `getmntinfo`, `getmntinfo_r_np`, `malloc`/`free` of the buffer, errno
  and `OSError`. It also covers the `int` overflow of `sizeof(statfs_t) *
  mcnt`. The entries are a parameter of `Collect.CollectRecords`.
- `method_statfs` and `method_fstatfs` are not modelled. They are system
  calls around one `build_statfs` call, and that call is modelled.
- Argument parsing (`PyArg_ParseTupleAndKeywords`) and the Python
  exception state are not modelled. A failure is a NULL result (`None`).
- Module initialisation outside the `valid` pass is not modelled: the
  `namedtuple` class creation, the `members` tuple (the catalogue names in
  order, which is `Schema.Entry`), `ModuleAddRelease`, and the allocation
  failures of `prepare_statfs`. They run once at import, and a failure
  there fails the import.
- The record constructor (`PyObject_Call(new_statfs_func, …)`) is one
  allocation attempt. Its result is the tuple of the 31 values. The named
  tuple class itself is not modelled.
- Reference counts are not modelled. Each allocation is accounted once,
  to the object responsible for releasing it, and moves (`TupleMoveItem`,
  `ListMoveItem`) transfer that responsibility. The record constructor
  (statfs.c:467) is the one place where two objects share values: the
  record takes its own reference to each of the 31 values while `args`
  keeps its own. In the model both objects list the values among their
  parts, and `Record.FinishAsWrittenLeaks` states what the leaked `args`
  therefore keeps alive.
- Record.ArgsLeakOnSuccess: over the whole build it states the leaked
  allocation of the tuple itself. That the tuple also pins every value of
  the record is stated for the tail, by `Record.FinishAsWrittenLeaks`.
- Cached objects are not modelled. CPython returns shared small ints
  (-5 to 256) and the shared empty string without allocating, and those
  calls cannot fail. The model counts every conversion as an allocation
  that may fail, so it has more failure points than CPython.
- The consistency check `if (i != STATFS_MEMBERS) abort();` (statfs.c:462-463)
  is not modelled. In the model an argument's position is its `Field`, and
  `Record.Assemble` places all 31 values, so the check cannot fire.
- `Py_None` is never allocated, so its reference count is not tracked.
- The four scratch arrays (`fsidv`, `reserved2v`, `reserved4v`,
  `reservedv`) are one scratch sequence in the model. Only one array
  member is being converted at any time, and a failure jumps to `exit`,
  so the ownership is the same.
- Values.ToSigned64 and Values.ToUnsigned64: only the LP64 widths are
  modelled (64-bit `long` and `unsigned long`). The build also configures
  ILP32 hosts, where `long` is 32 bits wide, and there `(long) f_owner` of
  a uid of 2^31 or more is negative, unlike in the model.
- Collect.CollectRecords: its ownership clause holds for the loop over
  the corrected `build_statfs`. As written, every record built leaks its
  argument tuple (see Findings), so the clause does not hold of the source
  as written.
- Character buffers without a NUL are not modelled: the type of a
  buffer (`Native.CBuffer`) requires one, as a C string array holds one.
  C would read past such a buffer.
- The `valid_members` and `valid_indices` tuples (statfs.c:753-760) are
  not modelled as Python objects. `Schema.PrepareValid` returns their
  contents.

## Findings

| source | as written | input that shows it | evidently intended | confidence | as-written member | corrected member |
|---|---|---|---|---|---|---|
| statfs.c:418-470 | `args` from `PyTuple_New(STATFS_MEMBERS)` is never released: `exit` only calls `statfs_exit`, whose slots were emptied by the moves into `args` | any native struct whose members all convert, with no allocation failing: the tuple, and with it a reference to every value it holds, leaks on every successful build, so the values outlive the record; if only the constructor call fails, the tuple and all 31 converted values leak | `Py_DECREF(args)` (or `Py_XDECREF`) at `exit`, so the tuple is released and the record keeps the values alive | not executed | Record.ArgsLeakOnSuccess | Record.BuildStatfsOwns |

`Record.BuildStatfsAsWritten` is the builder as the source is written, and
`Record.ArgsLeakOnConstructorFailure` shows the second half of the finding.
`Record.BuildStatfs` is the corrected builder, and the collection loop uses it.

=== FILE: builder.dfy ===
/** `build_statfs` with `statfs_init`, `statfs_fix` and `statfs_exit`: one
    native struct becomes one 31-slot record, or nothing, and every object
    allocated on the way is either released or handed to the caller. */
module Builder {
  import opened Wrappers
  import opened Values
  import opened Schema
  import opened Native
  import opened Plan
  import opened Ownership

  /** The builder's state: the `statfs_args` slots (slot i holds the member
      that becomes argument i), the scratch entries of the array member
      being converted, the next allocation attempt, and whether every step
      so far succeeded (a failing step jumps to `exit`). */
  datatype Run = Run(slots: seq<Option<Obj>>, scratch: seq<Obj>, next: nat, ok: bool)

  /** Everything the state keeps alive: what `statfs_exit` releases. */
  function Held(r: Run): multiset<nat>
  {
    SlotParts(r.slots) + ObjParts(r.scratch)
  }

  /** `statfs_init`: every member and every scratch entry is NULL. */
  function Init(start: nat): (r: Run)
    ensures |r.slots| == STATFS_MEMBERS && r.scratch == [] && r.ok && r.next == start
    ensures forall i :: 0 <= i < |r.slots| ==> r.slots[i].None?
    ensures Held(r) == multiset{}
  {
    var slots := seq(STATFS_MEMBERS, _ => None);
    SlotPartsEmpty(slots);
    Run(slots, [], start, true)
  }

  /** The allocation attempts converting one member takes when it succeeds:
      one object, or one per array element plus the tuple. */
  function Allocs(raw: Raw): nat
  {
    match raw
    case Words(_, xs) => |xs| + 1
    case _ => 1
  }

  /** Convert the elements of an array member into the scratch entries, in
      order, stopping at the first allocation that fails. */
  function FillScratch(conv: Conv, xs: seq<int>, failing: set<nat>, r: Run): (r': Run)
    requires r.ok
    ensures r'.slots == r.slots
    ensures r.next <= r'.next <= r.next + |xs|
    ensures r'.ok <==> NoFail(r.next, r.next + |xs|, failing)
    ensures r'.ok ==> r'.next == r.next + |xs|
    decreases |xs|
  {
    if |xs| == 0 then r
    else if r.next in failing then r.(next := r.next + 1, ok := false)
    else
      var o := Obj(ConvertWord(conv, xs[0]), multiset{r.next});
      FillScratch(conv, xs[1..], failing, r.(scratch := r.scratch + [o], next := r.next + 1))
  }

  /** The scratch entries keep alive exactly what the attempts allocated. */
  lemma {:induction false} FillScratchOwns(conv: Conv, xs: seq<int>, failing: set<nat>, r: Run)
    requires r.ok
    ensures var r' := FillScratch(conv, xs, failing, r);
      Held(r') == Held(r) + Fresh(r.next, r'.next, failing)
    decreases |xs|
  {
    FreshOne(r.next, failing);
    if |xs| > 0 && r.next !in failing {
      var o := Obj(ConvertWord(conv, xs[0]), multiset{r.next});
      var r1 := r.(scratch := r.scratch + [o], next := r.next + 1);
      var r' := FillScratch(conv, xs[1..], failing, r1);
      assert FillScratch(conv, xs, failing, r) == r';
      ObjPartsAppend(r.scratch, o);
      FillScratchOwns(conv, xs[1..], failing, r1);
      FreshSplit(r.next, r1.next, r'.next, failing);
      Accumulate(Held(r), Held(r1), Held(r'), Fresh(r.next, r1.next, failing), Fresh(r1.next, r'.next, failing));
    }
  }

  /** After a successful fill the scratch entries hold the converted
      elements, in order, after what they held before. */
  lemma {:induction false} FillScratchContents(conv: Conv, xs: seq<int>, failing: set<nat>, r: Run)
    requires r.ok
    ensures var r' := FillScratch(conv, xs, failing, r);
      r'.ok ==>
        && |r'.scratch| == |r.scratch| + |xs|
        && r'.scratch[..|r.scratch|] == r.scratch
        && forall j :: 0 <= j < |xs| ==> r'.scratch[|r.scratch| + j].val == ConvertWord(conv, xs[j])
    decreases |xs|
  {
    if |xs| > 0 && r.next !in failing {
      var o := Obj(ConvertWord(conv, xs[0]), multiset{r.next});
      var r1 := r.(scratch := r.scratch + [o], next := r.next + 1);
      FillScratchContents(conv, xs[1..], failing, r1);
      var r' := FillScratch(conv, xs[1..], failing, r1);
      if r'.ok {
        assert r'.scratch[..|r.scratch|] == r1.scratch[..|r1.scratch|][..|r.scratch|];
        forall j | 0 <= j < |xs|
          ensures r'.scratch[|r.scratch| + j].val == ConvertWord(conv, xs[j])
        {
          if j > 0 {
            assert xs[1..][j - 1] == xs[j];
            assert r'.scratch[|r1.scratch| + (j - 1)].val == ConvertWord(conv, xs[1..][j - 1]);
          } else {
            assert r'.scratch[|r.scratch|] == r'.scratch[..|r1.scratch|][|r.scratch|];
          }
        }
      }
    }
  }

  /** One allocation that, when it succeeds, stores a new object holding
      `v` into slot `f`. */
  function StoreNew(f: Field, v: Value, failing: set<nat>, r: Run): (r': Run)
    requires |r.slots| == STATFS_MEMBERS
    ensures |r'.slots| == STATFS_MEMBERS
  {
    if r.next in failing then r.(next := r.next + 1, ok := false)
    else r.(slots := r.slots[f := Some(Obj(v, multiset{r.next}))], next := r.next + 1)
  }

  /** `PyTuple_New` for an array member, then `TupleMoveItem` of every
      scratch entry: the tuple takes over the scratch entries, which become
      NULL. */
  function Pack(f: Field, failing: set<nat>, t: Run): (r': Run)
    requires |t.slots| == STATFS_MEMBERS
    ensures |r'.slots| == STATFS_MEMBERS
  {
    if t.next in failing then t.(next := t.next + 1, ok := false)
    else
      var tuple := Obj(Tuple(Vals(t.scratch)), multiset{t.next} + ObjParts(t.scratch));
      t.(slots := t.slots[f := Some(tuple)], scratch := [], next := t.next + 1)
  }

  /** One line of the builder: convert member `f` of the native struct
      (`build_statfs_gen_*`, or the tuple block of an array member). */
  function Step(f: Field, raw: Raw, failing: set<nat>, r: Run): (r': Run)
    requires |r.slots| == STATFS_MEMBERS
    ensures |r'.slots| == STATFS_MEMBERS && r.next <= r'.next
  {
    if !r.ok then r
    else match raw
      case Word(conv, x) => StoreNew(f, ConvertWord(conv, x), failing, r)
      case Chars(buf) =>
        // PyUnicode_FromString fails on bytes the strict decoder rejects
        if !ValidUtf8(CString(buf)) then r.(ok := false)
        else StoreNew(f, Text(CString(buf)), failing, r)
      case Words(conv, xs) =>
        var t := FillScratch(conv, xs, failing, r);
        if !t.ok then t else Pack(f, failing, t)
  }

  /** A successful store adds exactly the new object. */
  lemma StoreNewAdds(f: Field, v: Value, failing: set<nat>, r: Run)
    requires |r.slots| == STATFS_MEMBERS && r.slots[f].None? && r.next !in failing
    ensures Held(StoreNew(f, v, failing, r)) == Held(r) + multiset{r.next}
  {
    var r' := StoreNew(f, v, failing, r);
    SlotPartsUpdate(r.slots, f, Some(Obj(v, multiset{r.next})));
    var s0, s1 := SlotParts(r.slots), SlotParts(r'.slots);
    assert s1 + multiset{} == s1;
    GrowFirst(s0, ObjParts(r.scratch), multiset{r.next}, s1);
  }

  lemma StoreNewOwns(f: Field, v: Value, failing: set<nat>, r: Run)
    requires |r.slots| == STATFS_MEMBERS && r.slots[f].None?
    ensures var r' := StoreNew(f, v, failing, r);
      Held(r') == Held(r) + Fresh(r.next, r'.next, failing)
  {
    FreshOne(r.next, failing);
    if r.next !in failing {
      StoreNewAdds(f, v, failing, r);
    } else {
      assert Held(r) + multiset{} == Held(r);
    }
  }

  /** A successful pack adds exactly the tuple, which takes over the
      scratch entries. */
  lemma PackAdds(f: Field, failing: set<nat>, t: Run)
    requires |t.slots| == STATFS_MEMBERS && t.slots[f].None? && t.next !in failing
    ensures Held(Pack(f, failing, t)) == Held(t) + multiset{t.next}
  {
    var r' := Pack(f, failing, t);
    var o := ObjParts(t.scratch);
    var tuple := Obj(Tuple(Vals(t.scratch)), multiset{t.next} + o);
    SlotPartsUpdate(t.slots, f, Some(tuple));
    var s0, s1 := SlotParts(t.slots), SlotParts(r'.slots);
    assert s1 + multiset{} == s1;
    assert Held(r') == s1 + multiset{};
    Shuffle(s0, o, multiset{}, multiset{t.next});
    assert s1 == (s0 + o) + (multiset{} + multiset{t.next});
  }

  lemma PackOwns(f: Field, failing: set<nat>, t: Run)
    requires |t.slots| == STATFS_MEMBERS && t.slots[f].None?
    ensures var r' := Pack(f, failing, t);
      Held(r') == Held(t) + Fresh(t.next, r'.next, failing)
  {
    FreshOne(t.next, failing);
    if t.next !in failing {
      PackAdds(f, failing, t);
    } else {
      assert Held(t) + multiset{} == Held(t);
    }
  }

  /** A step allocates only fresh objects and keeps every one of them:
      nothing is lost or released twice before `statfs_exit`. */
  lemma StepOwns(f: Field, raw: Raw, failing: set<nat>, r: Run)
    requires |r.slots| == STATFS_MEMBERS && r.slots[f].None?
    ensures var r' := Step(f, raw, failing, r);
      Held(r') == Held(r) + Fresh(r.next, r'.next, failing)
  {
    FreshOne(r.next, failing);
    if r.ok {
      match raw
      case Word(conv, x) =>
        StoreNewOwns(f, ConvertWord(conv, x), failing, r);
      case Chars(buf) =>
        StoreNewOwns(f, Text(CString(buf)), failing, r);
      case Words(conv, xs) =>
        var t := FillScratch(conv, xs, failing, r);
        FillScratchOwns(conv, xs, failing, r);
        if t.ok {
          var r' := Pack(f, failing, t);
          assert Step(f, raw, failing, r) == r';
          PackOwns(f, failing, t);
          FreshSplit(r.next, t.next, r'.next, failing);
          Accumulate(Held(r), Held(t), Held(r'), Fresh(r.next, t.next, failing), Fresh(t.next, r'.next, failing));
        }
    }
  }

  /** The result of a one-allocation step. */
  lemma StoreNewResult(f: Field, v: Value, failing: set<nat>, r: Run)
    requires |r.slots| == STATFS_MEMBERS && r.ok
    ensures var r' := StoreNew(f, v, failing, r);
      && r'.next == r.next + 1 && r'.scratch == r.scratch
      && (r'.ok <==> NoFail(r.next, r.next + 1, failing))
      && (r'.ok ==> r'.slots == r.slots[f := Some(Obj(v, r'.slots[f].value.parts))])
      && (!r'.ok ==> r'.slots == r.slots)
  {
  }

  /** The result of converting an array member. */
  lemma WordsStepResult(f: Field, conv: Conv, xs: seq<int>, failing: set<nat>, r: Run)
    requires |r.slots| == STATFS_MEMBERS && r.scratch == [] && r.ok
    ensures var r' := Step(f, Words(conv, xs), failing, r);
      && (r'.ok <==> NoFail(r.next, r.next + |xs| + 1, failing))
      && r.next <= r'.next <= r.next + |xs| + 1
      && (r'.ok ==> r'.next == r.next + |xs| + 1 && r'.scratch == [])
      && (r'.ok ==> r'.slots == r.slots[f := Some(Obj(Convert(Words(conv, xs)), r'.slots[f].value.parts))])
      && (!r'.ok ==> r'.slots == r.slots)
  {
    var t := FillScratch(conv, xs, failing, r);
    FillScratchContents(conv, xs, failing, r);
    var r' := Step(f, Words(conv, xs), failing, r);
    if t.ok {
      assert r' == Pack(f, failing, t);
      assert NoFail(r.next, r.next + |xs| + 1, failing) <==> t.next !in failing;
      if r'.ok {
        assert Vals(t.scratch) == Convert(Words(conv, xs)).items;
        assert r'.slots == r.slots[f := Some(Obj(Tuple(Vals(t.scratch)), r'.slots[f].value.parts))];
      }
    } else {
      assert r' == t;
    }
  }

  /** A step succeeds exactly when its text decodes and all its allocation
      attempts succeed; it then fills slot `f` with the converted member and
      touches no other slot. */
  lemma StepResult(f: Field, raw: Raw, failing: set<nat>, r: Run)
    requires |r.slots| == STATFS_MEMBERS && r.scratch == [] && r.ok
    ensures var r' := Step(f, raw, failing, r);
      && (r'.ok <==> Decodes(raw) && NoFail(r.next, r.next + Allocs(raw), failing))
      && r.next <= r'.next <= r.next + Allocs(raw)
      && (r'.ok ==> r'.next == r.next + Allocs(raw) && r'.scratch == [])
      && (r'.ok ==> r'.slots == r.slots[f := Some(Obj(Convert(raw), r'.slots[f].value.parts))])
      && (!r'.ok ==> r'.slots == r.slots)
  {
    match raw
    case Word(conv, x) =>
      StoreNewResult(f, ConvertWord(conv, x), failing, r);
    case Chars(buf) =>
      if ValidUtf8(CString(buf)) {
        StoreNewResult(f, Text(CString(buf)), failing, r);
      }
    case Words(conv, xs) =>
      WordsStepResult(f, conv, xs, failing, r);
  }

  /** Every field of the plan is a member of the native struct. */
  predicate Present(s: NativeStatfs, plan: seq<Field>)
  {
    forall k :: 0 <= k < |plan| ==> NativeMember(s, plan[k]).Some?
  }

  /** The member of field `f` converts (every member but a text member
      whose bytes do not decode always does). */
  predicate MemberDecodes(s: NativeStatfs, f: Field)
  {
    NativeMember(s, f).Some? ==> Decodes(NativeMember(s, f).value)
  }

  /** Every member of the plan converts. */
  predicate PlanDecodes(s: NativeStatfs, plan: seq<Field>)
  {
    |plan| > 0 ==> MemberDecodes(s, plan[0]) && PlanDecodes(s, plan[1..])
  }

  function MemberAllocs(s: NativeStatfs, f: Field): nat
  {
    if NativeMember(s, f).Some? then Allocs(NativeMember(s, f).value) else 0
  }

  /** The allocation attempts a plan takes when every step succeeds. */
  function PlanAllocs(s: NativeStatfs, plan: seq<Field>): nat
  {
    if |plan| == 0 then 0 else MemberAllocs(s, plan[0]) + PlanAllocs(s, plan[1..])
  }

  /** The conversion lines of the builder, in source order; the first
      failure skips the rest (`goto exit`). */
  function RunPlan(s: NativeStatfs, plan: seq<Field>, failing: set<nat>, r: Run): (r': Run)
    requires |r.slots| == STATFS_MEMBERS && Present(s, plan)
    ensures |r'.slots| == STATFS_MEMBERS && r.next <= r'.next
    decreases |plan|
  {
    if |plan| == 0 then r
    else RunPlan(s, plan[1..], failing, Step(plan[0], NativeMember(s, plan[0]).value, failing, r))
  }

  /** Once a step has failed, the remaining lines are skipped. */
  lemma {:induction false} RunPlanSkips(s: NativeStatfs, plan: seq<Field>, failing: set<nat>, r: Run)
    requires |r.slots| == STATFS_MEMBERS && Present(s, plan) && !r.ok
    ensures RunPlan(s, plan, failing, r) == r
    decreases |plan|
  {
    if |plan| > 0 {
      RunPlanSkips(s, plan[1..], failing, r);
    }
  }

  /** Slots of a plan without repeats that the run has not reached are
      still NULL. */
  predicate Pending(plan: seq<Field>, r: Run)
    requires |r.slots| == STATFS_MEMBERS
  {
    forall k :: 0 <= k < |plan| ==> r.slots[plan[k]].None?
  }

  /** A successful step changes slot `f` only and leaves no scratch
      entries behind. */
  lemma StepFrame(f: Field, raw: Raw, failing: set<nat>, r: Run)
    requires |r.slots| == STATFS_MEMBERS && r.scratch == [] && r.ok
    ensures var r' := Step(f, raw, failing, r);
      r'.ok ==> r'.scratch == [] && forall g :: 0 <= g < STATFS_MEMBERS && g != f ==> r'.slots[g] == r.slots[g]
  {
    StepResult(f, raw, failing, r);
  }

  /** A successful step holds the converted member in slot `f`. */
  lemma StepSlot(f: Field, raw: Raw, failing: set<nat>, r: Run)
    requires |r.slots| == STATFS_MEMBERS && r.scratch == [] && r.ok
    ensures var r' := Step(f, raw, failing, r);
      r'.ok ==>
        && r'.slots[f].Some? && r'.slots[f].value.val == Convert(raw)
        && forall g :: 0 <= g < STATFS_MEMBERS && g != f ==> r'.slots[g] == r.slots[g]
  {
    StepResult(f, raw, failing, r);
  }

  /** Filling the slot of the plan's first field leaves the rest of the
      plan pending. */
  lemma PendingTail(plan: seq<Field>, r: Run, r1: Run)
    requires |r.slots| == STATFS_MEMBERS && |r1.slots| == STATFS_MEMBERS
    requires |plan| > 0 && NoDup(plan) && Pending(plan, r)
    requires forall g :: 0 <= g < STATFS_MEMBERS && g != plan[0] ==> r1.slots[g] == r.slots[g]
    ensures NoDup(plan[1..]) && Pending(plan[1..], r1)
  {
    forall k | 0 <= k < |plan[1..]|
      ensures r1.slots[plan[1..][k]].None?
    {
      assert plan[1..][k] == plan[k + 1] != plan[0];
    }
    forall k, l | 0 <= k < l < |plan[1..]|
      ensures plan[1..][k] != plan[1..][l]
    {
      assert plan[1..][k] == plan[k + 1];
      assert plan[1..][l] == plan[l + 1];
    }
  }

  /** Running the plan allocates only fresh objects and keeps all of them. */
  lemma {:induction false} RunPlanOwns(s: NativeStatfs, plan: seq<Field>, failing: set<nat>, r: Run)
    requires |r.slots| == STATFS_MEMBERS && Present(s, plan)
    requires r.ok && r.scratch == [] && NoDup(plan) && Pending(plan, r)
    ensures var r' := RunPlan(s, plan, failing, r);
      Held(r') == Held(r) + Fresh(r.next, r'.next, failing)
    decreases |plan|
  {
    var r' := RunPlan(s, plan, failing, r);
    if |plan| == 0 {
      assert Fresh(r.next, r.next, failing) == multiset{};
    } else {
      var f := plan[0];
      var r1 := Step(f, NativeMember(s, f).value, failing, r);
      assert r' == RunPlan(s, plan[1..], failing, r1);
      StepOwns(f, NativeMember(s, f).value, failing, r);
      StepFrame(f, NativeMember(s, f).value, failing, r);
      if r1.ok {
        PendingTail(plan, r, r1);
        assert Present(s, plan[1..]) by {
          forall k | 0 <= k < |plan[1..]| ensures NativeMember(s, plan[1..][k]).Some? {
            assert plan[1..][k] == plan[k + 1];
          }
        }
        RunPlanOwns(s, plan[1..], failing, r1);
      } else {
        RunPlanSkips(s, plan[1..], failing, r1);
        assert Fresh(r1.next, r1.next, failing) == multiset{};
      }
      FreshSplit(r.next, r1.next, r'.next, failing);
      Accumulate(Held(r), Held(r1), Held(r'), Fresh(r.next, r1.next, failing), Fresh(r1.next, r'.next, failing));
    }
  }

  /** Every member of the plan converts, read pointwise. */
  lemma {:induction false} PlanDecodesMeans(s: NativeStatfs, plan: seq<Field>)
    ensures PlanDecodes(s, plan) <==> forall k :: 0 <= k < |plan| ==> MemberDecodes(s, plan[k])
    decreases |plan|
  {
    if |plan| > 0 {
      PlanDecodesMeans(s, plan[1..]);
      assert forall k :: 0 < k < |plan| ==> plan[k] == plan[1..][k - 1];
    }
  }

  lemma PresentTail(s: NativeStatfs, plan: seq<Field>)
    requires |plan| > 0 && Present(s, plan)
    ensures Present(s, plan[1..])
  {
    forall k | 0 <= k < |plan[1..]| ensures NativeMember(s, plan[1..][k]).Some? {
      assert plan[1..][k] == plan[k + 1];
    }
  }

  /** Two stages run one after the other succeed together exactly when
      both decode and the combined run of attempts succeeds; the second
      stage is skipped once the first fails. */
  lemma ComposeOutcome(n0: nat, a0: nat, rest: nat, n1: nat, n2: nat, d0: bool, dr: bool,
                       ok1: bool, ok2: bool, failing: set<nat>)
    requires ok1 <==> d0 && NoFail(n0, n0 + a0, failing)
    requires n0 <= n1 <= n0 + a0 && (ok1 ==> n1 == n0 + a0)
    requires ok1 ==> (ok2 <==> dr && NoFail(n1, n1 + rest, failing)) && n2 <= n1 + rest
    requires ok1 && ok2 ==> n2 == n1 + rest
    requires !ok1 ==> !ok2 && n2 == n1
    ensures ok2 <==> d0 && dr && NoFail(n0, n0 + a0 + rest, failing)
    ensures n2 <= n0 + a0 + rest && (ok2 ==> n2 == n0 + a0 + rest)
  {
    NoFailSplit(n0, n0 + a0, n0 + a0 + rest, failing);
  }

  /** The plan succeeds exactly when every member converts and every
      allocation attempt it takes succeeds; a successful run takes exactly
      the plan's attempts and leaves no scratch entries. */
  lemma {:induction false} RunPlanOutcome(s: NativeStatfs, plan: seq<Field>, failing: set<nat>, r: Run)
    requires |r.slots| == STATFS_MEMBERS && Present(s, plan) && r.ok && r.scratch == []
    ensures var r' := RunPlan(s, plan, failing, r);
      && (r'.ok <==> PlanDecodes(s, plan) && NoFail(r.next, r.next + PlanAllocs(s, plan), failing))
      && r'.next <= r.next + PlanAllocs(s, plan)
      && (r'.ok ==> r'.next == r.next + PlanAllocs(s, plan) && r'.scratch == [])
    decreases |plan|
  {
    var r' := RunPlan(s, plan, failing, r);
    if |plan| > 0 {
      var f := plan[0];
      var raw := NativeMember(s, f).value;
      var r1 := Step(f, raw, failing, r);
      assert r' == RunPlan(s, plan[1..], failing, r1);
      var a0, rest := MemberAllocs(s, f), PlanAllocs(s, plan[1..]);
      assert PlanAllocs(s, plan) == a0 + rest;
      assert PlanDecodes(s, plan) <==> MemberDecodes(s, f) && PlanDecodes(s, plan[1..]);
      assert MemberDecodes(s, f) == Decodes(raw) && a0 == Allocs(raw);
      StepResult(f, raw, failing, r);
      assert r1.ok <==> MemberDecodes(s, f) && NoFail(r.next, r.next + a0, failing);
      PresentTail(s, plan);
      if r1.ok {
        RunPlanOutcome(s, plan[1..], failing, r1);
      } else {
        RunPlanSkips(s, plan[1..], failing, r1);
        assert r' == r1;
      }
      ComposeOutcome(r.next, a0, rest, r1.next, r'.next, MemberDecodes(s, f), PlanDecodes(s, plan[1..]),
        r1.ok, r'.ok, failing);
    }
  }

  /** A successful plan fills the slot of every planned field with its
      converted member and leaves every other slot as it was. */
  lemma {:induction false} RunPlanSlot(s: NativeStatfs, plan: seq<Field>, failing: set<nat>, r: Run, i: Field)
    requires |r.slots| == STATFS_MEMBERS && Present(s, plan) && r.ok && r.scratch == []
    ensures var r' := RunPlan(s, plan, failing, r);
      r'.ok ==>
        && (i in plan ==> r'.slots[i].Some? && r'.slots[i].value.val == Convert(NativeMember(s, i).value))
        && (i !in plan ==> r'.slots[i] == r.slots[i])
    decreases |plan|
  {
    var r' := RunPlan(s, plan, failing, r);
    if |plan| > 0 {
      var f := plan[0];
      var raw := NativeMember(s, f).value;
      var r1 := Step(f, raw, failing, r);
      assert r' == RunPlan(s, plan[1..], failing, r1);
      StepSlot(f, raw, failing, r);
      StepFrame(f, raw, failing, r);
      PresentTail(s, plan);
      if r1.ok {
        RunPlanSlot(s, plan[1..], failing, r1, i);
        assert i in plan <==> i == f || i in plan[1..];
      } else {
        RunPlanSkips(s, plan[1..], failing, r1);
      }
    }
  }
}

=== FILE: collect.dfy ===
/** The collection loops of `getfsstat` and `getmntinfo`: one record per
    mounted file system, all or nothing. */
module Collect {
  import opened Wrappers
  import opened Values
  import opened Native
  import opened Ownership
  import opened Record

  /** The sum of a sequence of attempt counts. */
  function Sum(xs: seq<nat>): nat
  {
    if |xs| == 0 then 0 else Sum(xs[..|xs| - 1]) + xs[|xs| - 1]
  }

  /** A prefix sums to no more than the whole. */
  lemma {:induction false} SumPrefix(xs: seq<nat>, i: nat)
    requires i <= |xs|
    ensures Sum(xs[..i]) <= Sum(xs)
    decreases |xs|
  {
    if i < |xs| {
      var init := xs[..|xs| - 1];
      assert init[..i] == xs[..i];
      SumPrefix(init, i);
    } else {
      assert xs[..i] == xs;
    }
  }

  lemma SumNext(xs: seq<nat>, i: nat)
    requires i < |xs|
    ensures Sum(xs[..i + 1]) == Sum(xs[..i]) + xs[i]
  {
    assert xs[..i + 1][..i] == xs[..i];
  }

  /** The allocation attempts each entry's record takes when all succeed. */
  function Costs(entries: seq<NativeStatfs>): (c: seq<nat>)
    ensures |c| == |entries|
    ensures forall k :: 0 <= k < |entries| ==> c[k] == AllocCount(entries[k])
  {
    seq(|entries|, k requires 0 <= k < |entries| => AllocCount(entries[k]))
  }

  /** The allocation attempts that building every record takes when all
      succeed. */
  function TotalAllocs(entries: seq<NativeStatfs>): nat
  {
    Sum(Costs(entries))
  }

  /** The collection can succeed: the list allocates, every entry
      converts, and every attempt the records take succeeds. */
  predicate CanCollect(entries: seq<NativeStatfs>, failing: set<nat>, start: nat)
  {
    && start !in failing
    && (forall k :: 0 <= k < |entries| ==> Convertible(entries[k]))
    && NoFail(start + 1, start + 1 + TotalAllocs(entries), failing)
  }

  /** The list holds the record of every entry, in order. */
  predicate HoldsRecords(list: Obj, entries: seq<NativeStatfs>)
  {
    && list.val.List?
    && |list.val.elems| == |entries|
    && forall k :: 0 <= k < |entries| ==> list.val.elems[k] == Tuple(ExpectedRecord(entries[k]))
  }

  /** The attempts of record `i` lie inside the attempts of all records. */
  lemma AttemptsWithin(costs: seq<nat>, i: nat, start: nat, cur: nat)
    requires i < |costs| && cur == start + 1 + Sum(costs[..i])
    ensures cur + costs[i] <= start + 1 + Sum(costs)
  {
    SumNext(costs, i);
    SumPrefix(costs, i + 1);
  }

  /** A record whose attempts lie inside a run and that cannot be built
      rules out that every record converts with the whole run succeeding. */
  lemma BlameOne(entries: seq<NativeStatfs>, i: nat, failing: set<nat>, cur: nat, lo: nat, hi: nat)
    requires i < |entries| && lo <= cur && cur + AllocCount(entries[i]) <= hi
    requires !(Convertible(entries[i]) && NoFail(cur, cur + AllocCount(entries[i]), failing))
    ensures !((forall k :: 0 <= k < |entries| ==> Convertible(entries[k])) && NoFail(lo, hi, failing))
  {
    if (forall k :: 0 <= k < |entries| ==> Convertible(entries[k])) && NoFail(lo, hi, failing) {
      NoFailNarrow(lo, cur, cur + AllocCount(entries[i]), hi, failing);
    }
  }

  /** What one `build_statfs` call establishes (`BuildStatfsOwns` and
      `BuildStatfsOutcome` together). */
  predicate BuildMeets(e: NativeStatfs, failing: set<nat>, cur: nat, b: Built)
  {
    && b.freed + Kept(b) == Fresh(cur, b.next, failing)
    && cur <= b.next <= cur + AllocCount(e)
    && (b.record.Some? <==> Convertible(e) && NoFail(cur, cur + AllocCount(e), failing))
    && (b.record.Some? ==> b.next == cur + AllocCount(e) && b.record.value.val == Tuple(ExpectedRecord(e)))
  }

  /** One `build_statfs` call of the loop. */
  method BuildRecord(e: NativeStatfs, failing: set<nat>, cur: nat) returns (b: Built)
    ensures BuildMeets(e, failing, cur, b)
    ensures b == BuildStatfs(e, failing, cur)
  {
    b := BuildStatfs(e, failing, cur);
    BuildStatfsOwns(e, failing, cur);
    BuildStatfsOutcome(e, failing, cur);
  }

  /** The loop state after `i` records were built and moved into the list:
      the attempts taken (`costs` are the entries' attempt counts),
      ownership of everything allocated since the list (released, or held
      by a record in the list), and the records. */
  predicate Collected(entries: seq<NativeStatfs>, costs: seq<nat>, failing: set<nat>, start: nat,
                      i: nat, items: seq<Obj>, released: multiset<nat>, cur: nat)
  {
    && i <= |entries| && |items| == i && |costs| == |entries|
    && cur == start + 1 + Sum(costs[..i])
    && released + ObjParts(items) == Fresh(start + 1, cur, failing)
    && NoFail(start + 1, cur, failing)
    && (forall k :: 0 <= k < i ==> Convertible(entries[k]))
    && (forall k :: 0 <= k < i ==> items[k].val == Tuple(ExpectedRecord(entries[k])))
  }

  lemma AdvanceOwns(failing: set<nat>, start: nat, items: seq<Obj>, released: multiset<nat>, cur: nat, b: Built)
    requires start + 1 <= cur <= b.next && b.record.Some?
    requires released + ObjParts(items) == Fresh(start + 1, cur, failing)
    requires b.freed + Kept(b) == Fresh(cur, b.next, failing)
    ensures released + b.freed + ObjParts(items + [b.record.value]) == Fresh(start + 1, b.next, failing)
  {
    var o, k := ObjParts(items), b.record.value.parts;
    FreshSplit(start + 1, cur, b.next, failing);
    ObjPartsAppend(items, b.record.value);
    Shuffle(released, o, b.freed, k);
    assert (released + o) + (b.freed + k) == Fresh(start + 1, b.next, failing);
  }

  lemma AdvanceRecords(entries: seq<NativeStatfs>, i: nat, items: seq<Obj>, o: Obj)
    requires i < |entries| && |items| == i
    requires forall k :: 0 <= k < i ==> items[k].val == Tuple(ExpectedRecord(entries[k]))
    requires o.val == Tuple(ExpectedRecord(entries[i]))
    ensures forall k :: 0 <= k < i + 1 ==> (items + [o])[k].val == Tuple(ExpectedRecord(entries[k]))
  {
  }

  /** A record that builds extends the loop state by one. */
  lemma CollectAdvance(entries: seq<NativeStatfs>, costs: seq<nat>, failing: set<nat>, start: nat,
                       i: nat, items: seq<Obj>, released: multiset<nat>, cur: nat, b: Built)
    requires i < |entries| && Collected(entries, costs, failing, start, i, items, released, cur)
    requires costs == Costs(entries)
    requires BuildMeets(entries[i], failing, cur, b) && b.record.Some?
    ensures Collected(entries, costs, failing, start, i + 1, items + [b.record.value], released + b.freed, b.next)
  {
    SumNext(costs, i);
    NoFailSplit(start + 1, cur, b.next, failing);
    AdvanceOwns(failing, start, items, released, cur, b);
    AdvanceRecords(entries, i, items, b.record.value);
  }

  /** A failed record leaves every attempt since the list accounted for:
      the list, the records in it and the record's own leftovers are all
      released. */
  lemma AbortOwns(failing: set<nat>, start: nat, cur: nat, next: nat,
                  released: multiset<nat>, held: multiset<nat>, freed: multiset<nat>)
    requires start !in failing && start + 1 <= cur <= next
    requires released + held == Fresh(start + 1, cur, failing)
    requires freed == Fresh(cur, next, failing)
    ensures multiset{start} + released + held + freed == Fresh(start, next, failing)
  {
    FreshSplit(start + 1, cur, next, failing);
    FreshHead(start, next, failing);
    Chain(multiset{start}, released, held, freed, Fresh(start + 1, cur, failing),
      Fresh(cur, next, failing), Fresh(start + 1, next, failing), Fresh(start, next, failing));
  }

  /** A record that fails ends the collection: the list and every record
      in it are released, and the collection as a whole cannot succeed. */
  lemma CollectAbort(entries: seq<NativeStatfs>, costs: seq<nat>, failing: set<nat>, start: nat,
                     i: nat, items: seq<Obj>, released: multiset<nat>, cur: nat, b: Built)
    requires start !in failing
    requires i < |entries| && Collected(entries, costs, failing, start, i, items, released, cur)
    requires costs == Costs(entries)
    requires BuildMeets(entries[i], failing, cur, b) && b.record.None?
    ensures multiset{start} + released + ObjParts(items) + b.freed == Fresh(start, b.next, failing)
    ensures !CanCollect(entries, failing, start)
    ensures b.next <= start + 1 + TotalAllocs(entries)
  {
    AttemptsWithin(costs, i, start, cur);
    BlameOne(entries, i, failing, cur, start + 1, start + 1 + Sum(costs));
    assert b.freed + multiset{} == b.freed;
    AbortOwns(failing, start, cur, b.next, released, ObjParts(items), b.freed);
  }

  /** The collection stopped at entry `stop`: every entry before it built,
      with all their attempts succeeding, the build of entry `stop` at the
      running attempt counter returned NULL, and no attempt followed it. */
  predicate StopsAt(entries: seq<NativeStatfs>, failing: set<nat>, start: nat, stop: nat, next: nat)
  {
    && stop < |entries|
    && (forall k :: 0 <= k < stop ==> Convertible(entries[k]))
    && var c := start + 1 + Sum(Costs(entries)[..stop]);
    && NoFail(start + 1, c, failing)
    && BuildStatfs(entries[stop], failing, c).record.None?
    && next == BuildStatfs(entries[stop], failing, c).next
  }

  /** A record that fails is where the collection stops. */
  lemma CollectStops(entries: seq<NativeStatfs>, failing: set<nat>, start: nat, i: nat, cur: nat, b: Built)
    requires i < |entries| && cur == start + 1 + Sum(Costs(entries)[..i])
    requires NoFail(start + 1, cur, failing)
    requires forall k :: 0 <= k < i ==> Convertible(entries[k])
    requires b == BuildStatfs(entries[i], failing, cur) && b.record.None?
    ensures StopsAt(entries, failing, start, i, b.next)
  {
  }

  /** After the last record the list holds every record, in order. */
  lemma CollectDone(entries: seq<NativeStatfs>, costs: seq<nat>, failing: set<nat>, start: nat,
                    items: seq<Obj>, released: multiset<nat>, cur: nat)
    requires start !in failing
    requires costs == Costs(entries)
    requires Collected(entries, costs, failing, start, |entries|, items, released, cur)
    ensures released + (multiset{start} + ObjParts(items)) == Fresh(start, cur, failing)
    ensures CanCollect(entries, failing, start)
    ensures cur == start + 1 + TotalAllocs(entries)
    ensures HoldsRecords(Obj(List(Vals(items)), multiset{start} + ObjParts(items)), entries)
  {
    assert costs[..|costs|] == costs;
    FreshHead(start, cur, failing);
    NoFailSplit(start, start + 1, cur, failing);
  }

  /** `PyList_New(mcnt)`, then `build_statfs` for every entry, each record
      moved into the list (`ListMoveItem`); the first record that fails
      ends the loop, and the list is then released with every record
      already in it. A list that cannot be allocated makes the call fail
      too. The native entries come from `getfsstat` or `getmntinfo`, which
      are parameters here. */
  method CollectRecords(entries: seq<NativeStatfs>, failing: set<nat>, start: nat)
    returns (list: Option<Obj>, next: nat, freed: multiset<nat>, ghost stop: nat)
    ensures freed + OptParts(list) == Fresh(start, next, failing)
    ensures start in failing ==> list.None? && next == start + 1
    ensures list.None? && start !in failing ==> StopsAt(entries, failing, start, stop, next)
    ensures list.Some? <==> CanCollect(entries, failing, start)
    ensures next <= start + 1 + TotalAllocs(entries)
    ensures list.Some? ==> next == start + 1 + TotalAllocs(entries) && HoldsRecords(list.value, entries)
  {
    if start in failing {
      FreshOne(start, failing);
      return None, start + 1, multiset{}, 0;
    }
    ghost var costs := Costs(entries);
    var items: seq<Obj> := [];
    var released: multiset<nat> := multiset{};
    var cur: nat := start + 1;
    var i: nat := 0;
    assert Fresh(start + 1, start + 1, failing) == multiset{};
    assert costs[..0] == [];
    while i < |entries|
      invariant Collected(entries, costs, failing, start, i, items, released, cur)
      decreases |entries| - i
    {
      var b := BuildRecord(entries[i], failing, cur);
      if b.record.None? {
        // `Py_XDECREF(plist)`: the list and the records moved into it
        CollectAbort(entries, costs, failing, start, i, items, released, cur, b);
        CollectStops(entries, failing, start, i, cur, b);
        return None, b.next, multiset{start} + released + ObjParts(items) + b.freed, i;
      }
      CollectAdvance(entries, costs, failing, start, i, items, released, cur, b);
      released := released + b.freed;
      items := items + [b.record.value];
      cur := b.next;
      i := i + 1;
    }
    CollectDone(entries, costs, failing, start, items, released, cur);
    list := Some(Obj(List(Vals(items)), multiset{start} + ObjParts(items)));
    return list, cur, released, |entries|;
  }
}

=== FILE: native.dfy ===
/** The native `struct statfs` as the builder sees it, and the table of how
    each of its members is read and converted. */
module Native {
  import opened Wrappers
  import opened Values
  import opened Schema

  /** A member of `statfs_args`, identified by the argument position the
      builder moves it to when it assembles the record. */
  type Field = i: nat | i < STATFS_MEMBERS

  const VERSION: Field := 0
  const OTYPE: Field := 1
  const OFLAGS: Field := 2
  const FLAGS: Field := 3
  const FLAGS_EXT: Field := 4
  const OWNER: Field := 5
  const FSID: Field := 6
  const TYPE: Field := 7
  const FSSUBTYPE: Field := 8
  const NAMEMAX: Field := 9
  const FSTYPENAME: Field := 10
  const MNTFROMNAME: Field := 11
  const MNTONNAME: Field := 12
  const SPARE: Field := 13
  const CHARSPARE: Field := 14
  const IOSIZE: Field := 15
  const BSIZE: Field := 16
  const BLOCKS: Field := 17
  const BAVAIL: Field := 18
  const BFREE: Field := 19
  const FFREE: Field := 20
  const FILES: Field := 21
  const SYNCWRITES: Field := 22
  const ASYNCWRITES: Field := 23
  const SYNCREADS: Field := 24
  const ASYNCREADS: Field := 25
  const RESERVED: Field := 26
  const RESERVED1: Field := 27
  const RESERVED2: Field := 28
  const RESERVED3: Field := 29
  const RESERVED4: Field := 30

  /** The name of the native member `pmnt->f_<n>` a field is read from. */
  function NativeName(f: Field): string
  {
    if f == VERSION then "f_version"
    else if f == OTYPE then "f_otype"
    else if f == OFLAGS then "f_oflags"
    else if f == FLAGS then "f_flags"
    else if f == FLAGS_EXT then "f_flags_ext"
    else if f == OWNER then "f_owner"
    else if f == FSID then "f_fsid"
    else if f == TYPE then "f_type"
    else if f == FSSUBTYPE then "f_fssubtype"
    else if f == NAMEMAX then "f_namemax"
    else if f == FSTYPENAME then "f_fstypename"
    else if f == MNTFROMNAME then "f_mntfromname"
    else if f == MNTONNAME then "f_mntonname"
    else if f == SPARE then "f_spare"
    else if f == CHARSPARE then "f_charspare"
    else if f == IOSIZE then "f_iosize"
    else if f == BSIZE then "f_bsize"
    else if f == BLOCKS then "f_blocks"
    else if f == BAVAIL then "f_bavail"
    else if f == BFREE then "f_bfree"
    else if f == FFREE then "f_ffree"
    else if f == FILES then "f_files"
    else if f == SYNCWRITES then "f_syncwrites"
    else if f == ASYNCWRITES then "f_asyncwrites"
    else if f == SYNCREADS then "f_syncreads"
    else if f == ASYNCREADS then "f_asyncreads"
    else if f == RESERVED then "f_reserved"
    else if f == RESERVED1 then "f_reserved1"
    else if f == RESERVED2 then "f_reserved2"
    else if f == RESERVED3 then "f_reserved3"
    else "f_reserved4"  // RESERVED4
  }

  /** A fixed C array of two words (`fsid_t`, `f_reserved2`). */
  type Words2 = xs: seq<int> | |xs| == 2 witness [0, 0]

  /** A fixed C array of four words (`f_reserved4`). */
  type Words4 = xs: seq<int> | |xs| == 4 witness [0, 0, 0, 0]

  /** The 64-bit Darwin `f_reserved`: its length `rcnt` comes from the
      native type, and its elements pass through the scratch array
      `reservedv`, which has room for eight. */
  type Reserved = xs: seq<int> | |xs| <= 8

  /** A fixed `char` array holding a NUL-terminated string. */
  type CBuffer = buf: seq<byte> | 0 in buf witness [0]

  /** The members every layout has. */
  datatype Common = Common(
    flags: int, owner: int, fsid: Words2, fsType: int,
    fstypename: CBuffer, mntfromname: CBuffer, mntonname: CBuffer,
    iosize: int, bsize: int, blocks: int, bavail: int, bfree: int,
    ffree: int, files: int)

  /** The members only one layout has. */
  datatype Ext =
    | FreeBsdExt(
        version: int, namemax: int, spare: CBuffer, charspare: CBuffer,
        syncwrites: int, asyncwrites: int, syncreads: int, asyncreads: int)
    | Darwin32Ext(
        otype: int, oflags: int, reserved1: int, reserved2: Words2,
        reserved3: int, reserved4: Words4)
    | Darwin64Ext(flagsExt: int, fssubtype: int, reserved: Reserved)
    | NoExt

  datatype NativeStatfs = NativeStatfs(common: Common, ext: Ext)

  /** The platform whose layout an extension part belongs to. */
  function Layout(e: Ext): Platform
  {
    match e
    case FreeBsdExt(_, _, _, _, _, _, _, _) => FreeBSD
    case Darwin32Ext(_, _, _, _, _, _) => Darwin32
    case Darwin64Ext(_, _, _) => Darwin64
    case NoExt => Unknown
  }

  /** Which `PyLong_From*` call converts an integer member. */
  datatype Conv = Long | ULong | ULongLong

  /** A native member together with the conversion the builder applies. */
  datatype Raw =
    | Word(conv: Conv, x: int)
    | Chars(buf: seq<byte>)
    | Words(conv: Conv, xs: seq<int>)

  /** The native member behind a field, with its conversion, or None when
      the struct's layout has no such member. */
  function NativeMember(s: NativeStatfs, f: Field): Option<Raw>
  {
    var c := s.common;
    var e := s.ext;
    if f == FLAGS then Some(Word(ULongLong, c.flags))
    else if f == OWNER then Some(Word(Long, c.owner))
    else if f == FSID then Some(Words(Long, c.fsid))
    else if f == TYPE then Some(Word(ULongLong, c.fsType))
    else if f == FSTYPENAME then Some(Chars(c.fstypename))
    else if f == MNTFROMNAME then Some(Chars(c.mntfromname))
    else if f == MNTONNAME then Some(Chars(c.mntonname))
    else if f == IOSIZE then Some(Word(ULongLong, c.iosize))
    else if f == BSIZE then Some(Word(ULongLong, c.bsize))
    else if f == BLOCKS then Some(Word(ULongLong, c.blocks))
    else if f == BAVAIL then Some(Word(ULongLong, c.bavail))
    else if f == BFREE then Some(Word(ULongLong, c.bfree))
    else if f == FFREE then Some(Word(ULongLong, c.ffree))
    else if f == FILES then Some(Word(ULongLong, c.files))
    else if f == VERSION then (if e.FreeBsdExt? then Some(Word(ULong, e.version)) else None)
    else if f == NAMEMAX then (if e.FreeBsdExt? then Some(Word(ULong, e.namemax)) else None)
    else if f == SPARE then (if e.FreeBsdExt? then Some(Chars(e.spare)) else None)
    else if f == CHARSPARE then (if e.FreeBsdExt? then Some(Chars(e.charspare)) else None)
    else if f == SYNCWRITES then (if e.FreeBsdExt? then Some(Word(ULongLong, e.syncwrites)) else None)
    else if f == ASYNCWRITES then (if e.FreeBsdExt? then Some(Word(ULongLong, e.asyncwrites)) else None)
    else if f == SYNCREADS then (if e.FreeBsdExt? then Some(Word(ULongLong, e.syncreads)) else None)
    else if f == ASYNCREADS then (if e.FreeBsdExt? then Some(Word(ULongLong, e.asyncreads)) else None)
    else if f == OTYPE then (if e.Darwin32Ext? then Some(Word(Long, e.otype)) else None)
    else if f == OFLAGS then (if e.Darwin32Ext? then Some(Word(Long, e.oflags)) else None)
    else if f == RESERVED1 then (if e.Darwin32Ext? then Some(Word(Long, e.reserved1)) else None)
    else if f == RESERVED2 then (if e.Darwin32Ext? then Some(Words(Long, e.reserved2)) else None)
    else if f == RESERVED3 then (if e.Darwin32Ext? then Some(Word(Long, e.reserved3)) else None)
    else if f == RESERVED4 then (if e.Darwin32Ext? then Some(Words(Long, e.reserved4)) else None)
    else if f == FLAGS_EXT then (if e.Darwin64Ext? then Some(Word(ULong, e.flagsExt)) else None)
    else if f == FSSUBTYPE then (if e.Darwin64Ext? then Some(Word(ULong, e.fssubtype)) else None)
    else (if e.Darwin64Ext? then Some(Words(ULong, e.reserved)) else None)  // RESERVED
  }

  /** The conversion table of the builder: the five character buffers go
      through `PyUnicode_FromString`, the four arrays become tuples, and
      every other member is an integer; `owner`, `fsid`, `otype`,
      `oflags` and `reserved1` to `reserved4` through `PyLong_FromLong`,
      `version`, `namemax`, `flags_ext`, `fssubtype` and the 64-bit Darwin
      `reserved` through `PyLong_FromUnsignedLong`, and the rest through
      `PyLong_FromUnsignedLongLong`. */
  lemma ConversionTable(s: NativeStatfs, f: Field)
    requires NativeMember(s, f).Some?
    ensures var raw := NativeMember(s, f).value;
      && (raw.Chars? <==> f in {FSTYPENAME, MNTFROMNAME, MNTONNAME, SPARE, CHARSPARE})
      && (raw.Words? <==> f in {FSID, RESERVED2, RESERVED4, RESERVED})
      && (!raw.Chars? ==>
            (raw.conv == Long <==> f in {OWNER, FSID, OTYPE, OFLAGS, RESERVED1, RESERVED2, RESERVED3, RESERVED4}))
      && (!raw.Chars? ==>
            (raw.conv == ULong <==> f in {VERSION, NAMEMAX, FLAGS_EXT, FSSUBTYPE, RESERVED}))
  {
  }

  /** The integer a `PyLong_From*` call produces from a native value. */
  function ConvertWord(conv: Conv, x: int): (v: Value)
    ensures conv == Long <==> v.I64?
    ensures conv != Long <==> v.U64?
    ensures v.U64? ==> v.u == ToUnsigned64(x)
    ensures v.I64? ==> v.i == ToSigned64(x)
  {
    match conv
    case Long => I64(ToSigned64(x))
    case ULong => U64(ToUnsigned64(x))
    case ULongLong => U64(ToUnsigned64(x))
  }

  /** What a successful conversion of a member yields. */
  function Convert(raw: Raw): (v: Value)
    ensures v != NoneValue
    ensures raw.Word? ==> v == ConvertWord(raw.conv, raw.x)
    ensures raw.Chars? ==> v == Text(CString(raw.buf))
    ensures raw.Words? ==>
              && v.Tuple? && |v.items| == |raw.xs|
              && forall j :: 0 <= j < |raw.xs| ==> v.items[j] == ConvertWord(raw.conv, raw.xs[j])
  {
    match raw
    case Word(conv, x) => ConvertWord(conv, x)
    case Chars(buf) => Text(CString(buf))
    case Words(conv, xs) => Tuple(seq(|xs|, j requires 0 <= j < |xs| => ConvertWord(conv, xs[j])))
  }

  /** The member's text decodes (every other member always converts). */
  predicate Decodes(raw: Raw)
  {
    raw.Chars? ==> ValidUtf8(CString(raw.buf))
  }
}

=== FILE: ownership.dfy ===
/** Objects the extension holds references to, the allocation oracle that
    decides which allocations fail, and the bookkeeping that tracks which
    allocations every held object keeps alive. */
module Ownership {
  import opened Wrappers
  import opened Values

  /** A Python object the C code holds a reference to. `parts` are the
      allocation ids the reference keeps alive: the object's own id and,
      for a container, the parts of its items. */
  datatype Obj = Obj(val: Value, parts: multiset<nat>)

  /** The reference `NewNone` returns: `Py_None` is never allocated, so it
      keeps nothing alive. */
  const NoneObj: Obj := Obj(NoneValue, multiset{})

  /** The allocation attempts numbered `lo` up to `hi` all succeed.
      `failing` is the oracle: the attempt numbers the allocator refuses. */
  predicate NoFail(lo: nat, hi: nat, failing: set<nat>)
  {
    forall id :: lo <= id < hi ==> id !in failing
  }

  /** The objects allocated by attempts `lo` up to `hi`: every attempt the
      oracle lets through. */
  function Fresh(lo: nat, hi: nat, failing: set<nat>): multiset<nat>
    decreases hi
  {
    if hi <= lo then multiset{}
    else Fresh(lo, hi - 1, failing) + (if hi - 1 in failing then multiset{} else multiset{hi - 1})
  }

  /** Each attempt that succeeds allocates one object, exactly once; no
      other id is counted. */
  lemma {:induction false} FreshCount(lo: nat, hi: nat, failing: set<nat>, id: nat)
    ensures Fresh(lo, hi, failing)[id] == (if lo <= id < hi && id !in failing then 1 else 0)
    decreases hi
  {
    if lo < hi {
      FreshCount(lo, hi - 1, failing, id);
    }
  }

  /** Consecutive runs of attempts allocate disjoint objects. */
  lemma FreshSplit(lo: nat, mid: nat, hi: nat, failing: set<nat>)
    requires lo <= mid <= hi
    ensures Fresh(lo, mid, failing) + Fresh(mid, hi, failing) == Fresh(lo, hi, failing)
  {
    forall id: nat
      ensures (Fresh(lo, mid, failing) + Fresh(mid, hi, failing))[id] == Fresh(lo, hi, failing)[id]
    {
      FreshCount(lo, mid, failing, id);
      FreshCount(mid, hi, failing, id);
      FreshCount(lo, hi, failing, id);
    }
  }

  /** A single attempt allocates one object exactly when it succeeds. */
  lemma FreshOne(id: nat, failing: set<nat>)
    ensures Fresh(id, id + 1, failing) == (if id in failing then multiset{} else multiset{id})
  {
    assert Fresh(id, id, failing) == multiset{};
  }

  /** A run whose first attempt succeeds allocates that attempt's object
      and the rest of the run. */
  lemma FreshHead(lo: nat, hi: nat, failing: set<nat>)
    requires lo < hi && lo !in failing
    ensures multiset{lo} + Fresh(lo + 1, hi, failing) == Fresh(lo, hi, failing)
  {
    FreshOne(lo, failing);
    FreshSplit(lo, lo + 1, hi, failing);
  }

  /** Consecutive runs of attempts all succeed exactly when the combined
      run does. */
  lemma NoFailSplit(lo: nat, mid: nat, hi: nat, failing: set<nat>)
    requires lo <= mid <= hi
    ensures NoFail(lo, mid, failing) && NoFail(mid, hi, failing) <==> NoFail(lo, hi, failing)
  {
  }

  /** A run of attempts inside a failure-free run is failure-free. */
  lemma NoFailNarrow(lo: nat, a: nat, b: nat, hi: nat, failing: set<nat>)
    requires lo <= a && b <= hi && NoFail(lo, hi, failing)
    ensures NoFail(a, b, failing)
  {
  }

  /** Two stages that each add what they allocate to what is held add the
      union of both. */
  lemma Accumulate(h0: multiset<nat>, h1: multiset<nat>, h2: multiset<nat>, m1: multiset<nat>, m2: multiset<nat>)
    requires h1 == h0 + m1 && h2 == h1 + m2
    ensures h2 == h0 + (m1 + m2)
  {
  }

  /** Regrouping four parts of a union. */
  lemma Shuffle(a: multiset<nat>, b: multiset<nat>, c: multiset<nat>, d: multiset<nat>)
    ensures (a + b) + (c + d) == (a + c) + (b + d)
  {
  }

  /** Regrouping a union whose parts make up two consecutive totals. */
  lemma Regroup(s: multiset<nat>, r: multiset<nat>, o: multiset<nat>, f: multiset<nat>,
                x: multiset<nat>, t: multiset<nat>)
    requires r + o + f == x && s + x == t
    ensures s + r + o + f == t
  {
  }

  /** Regrouping a union whose parts make up two consecutive runs, the
      whole preceded by one more part. */
  lemma Chain(s: multiset<nat>, r: multiset<nat>, o: multiset<nat>, f: multiset<nat>,
              a: multiset<nat>, b: multiset<nat>, x: multiset<nat>, t: multiset<nat>)
    requires r + o == a && f == b && a + b == x && s + x == t
    ensures s + r + o + f == t
  {
    Regroup(s, r, o, f, x, t);
  }

  /** Adding to the first of two parts adds to the whole. */
  lemma GrowFirst(a: multiset<nat>, b: multiset<nat>, m: multiset<nat>, a2: multiset<nat>)
    requires a2 == a + m
    ensures a2 + b == (a + b) + m
  {
  }

  function OptParts(o: Option<Obj>): multiset<nat>
  {
    if o.Some? then o.value.parts else multiset{}
  }

  /** Everything a sequence of maybe-NULL references keeps alive. */
  function SlotParts(slots: seq<Option<Obj>>): multiset<nat>
  {
    if |slots| == 0 then multiset{}
    else SlotParts(slots[..|slots| - 1]) + OptParts(slots[|slots| - 1])
  }

  /** Everything a sequence of references keeps alive. */
  function ObjParts(objs: seq<Obj>): multiset<nat>
  {
    if |objs| == 0 then multiset{}
    else ObjParts(objs[..|objs| - 1]) + objs[|objs| - 1].parts
  }

  /** The values of a sequence of references, in order. */
  function Vals(objs: seq<Obj>): (vs: seq<Value>)
    ensures |vs| == |objs|
    ensures forall j :: 0 <= j < |objs| ==> vs[j] == objs[j].val
  {
    if |objs| == 0 then [] else Vals(objs[..|objs| - 1]) + [objs[|objs| - 1].val]
  }

  /** Storing a reference into slot i replaces what that slot kept alive. */
  lemma {:induction false} SlotPartsUpdate(slots: seq<Option<Obj>>, i: nat, o: Option<Obj>)
    requires i < |slots|
    ensures SlotParts(slots[i := o]) + OptParts(slots[i]) == SlotParts(slots) + OptParts(o)
    decreases |slots|
  {
    var n := |slots| - 1;
    var upd := slots[i := o];
    assert SlotParts(upd) == SlotParts(upd[..n]) + OptParts(upd[n]);
    assert SlotParts(slots) == SlotParts(slots[..n]) + OptParts(slots[n]);
    if i < n {
      var init := slots[..n];
      assert upd[..n] == init[i := o];
      assert init[i] == slots[i];
      assert upd[n] == slots[n];
      SlotPartsUpdate(init, i, o);
      var a, b := SlotParts(init[i := o]), SlotParts(init);
      assert a + OptParts(slots[i]) == b + OptParts(o);
      assert SlotParts(upd) == a + OptParts(slots[n]);
      assert SlotParts(slots) == b + OptParts(slots[n]);
      assert SlotParts(upd) + OptParts(slots[i]) == (a + OptParts(slots[i])) + OptParts(slots[n]);
    } else {
      assert upd[..n] == slots[..n];
    }
  }

  lemma ObjPartsAppend(objs: seq<Obj>, o: Obj)
    ensures ObjParts(objs + [o]) == ObjParts(objs) + o.parts
  {
    assert (objs + [o])[..|objs|] == objs;
  }

  /** A row of NULL references keeps nothing alive. */
  lemma {:induction false} SlotPartsEmpty(slots: seq<Option<Obj>>)
    requires forall i :: 0 <= i < |slots| ==> slots[i].None?
    ensures SlotParts(slots) == multiset{}
    decreases |slots|
  {
    if |slots| > 0 {
      SlotPartsEmpty(slots[..|slots| - 1]);
    }
  }
}

=== FILE: plan.dfy ===
/** The order in which the builder converts native members (its universal
    block followed by one platform block), and the cross-check of that plan
    against the tag table and the native layouts. */
module Plan {
  import opened Wrappers
  import opened Values
  import opened Schema
  import opened Native

  /** Members converted on every platform. */
  const UniversalBlock: seq<Field> := [
    FLAGS, OWNER, FSID, TYPE,
    FSTYPENAME, MNTFROMNAME, MNTONNAME,
    IOSIZE, BSIZE, BLOCKS, BAVAIL, BFREE,
    FFREE, FILES
  ]

  const FreeBsdBlock: seq<Field> := [
    VERSION, NAMEMAX, SPARE, CHARSPARE,
    SYNCWRITES, ASYNCWRITES, SYNCREADS, ASYNCREADS
  ]

  const Darwin32Block: seq<Field> := [
    OTYPE, OFLAGS, RESERVED1, RESERVED2, RESERVED3, RESERVED4
  ]

  const Darwin64Block: seq<Field> := [FLAGS_EXT, FSSUBTYPE, RESERVED]

  /** The conditionally compiled block of platform `p`. */
  function PlatformBlock(p: Platform): seq<Field>
  {
    match p
    case FreeBSD => FreeBsdBlock
    case Darwin32 => Darwin32Block
    case Darwin64 => Darwin64Block
    case Unknown => []
  }

  /** Every member the builder converts on platform `p`, in order. */
  function PlanOf(p: Platform): seq<Field>
  {
    UniversalBlock + PlatformBlock(p)
  }

  predicate NoDup(fs: seq<Field>)
  {
    forall k, l :: 0 <= k < l < |fs| ==> fs[k] != fs[l]
  }

  predicate Ascending(fs: seq<Field>)
  {
    forall k :: 0 <= k < |fs| - 1 ==> fs[k] < fs[k + 1]
  }

  lemma {:induction false} AscendingNoDup(fs: seq<Field>)
    requires Ascending(fs)
    ensures forall k, l :: 0 <= k < l < |fs| ==> fs[k] < fs[l]
    ensures NoDup(fs)
    decreases |fs|
  {
    if |fs| > 1 {
      var tail := fs[1..];
      assert Ascending(tail) by {
        forall k | 0 <= k < |tail| - 1
          ensures tail[k] < tail[k + 1]
        {
          assert tail[k] == fs[k + 1] && tail[k + 1] == fs[k + 2];
        }
      }
      AscendingNoDup(tail);
      forall k, l | 0 <= k < l < |fs|
        ensures fs[k] < fs[l]
      {
        if k > 0 {
          assert fs[k] == tail[k - 1] && fs[l] == tail[l - 1];
        } else if l > 1 {
          assert fs[1] == tail[0] && fs[l] == tail[l - 1];
        }
      }
    }
  }

  lemma UniversalAscending()
    ensures Ascending(UniversalBlock)
  {
  }

  lemma FreeBsdAscending()
    ensures Ascending(FreeBsdBlock)
  {
  }

  lemma Darwin32Ascending()
    ensures Ascending(Darwin32Block)
  {
  }

  lemma Darwin64Ascending()
    ensures Ascending(Darwin64Block)
  {
  }

  /** No platform block repeats a universal member. */
  lemma BlocksDisjoint(p: Platform)
    ensures forall l :: 0 <= l < |PlatformBlock(p)| ==> PlatformBlock(p)[l] !in UniversalBlock
  {
  }

  /** No member is converted twice, so every conversion lands in a NULL
      slot and nothing already held is overwritten. */
  lemma {:induction false} PlanNoDup(p: Platform)
    ensures NoDup(PlanOf(p))
  {
    UniversalAscending();
    FreeBsdAscending();
    Darwin32Ascending();
    Darwin64Ascending();
    AscendingNoDup(UniversalBlock);
    var block := PlatformBlock(p);
    AscendingNoDup(block);
    BlocksDisjoint(p);
    var plan := PlanOf(p);
    forall k, l | 0 <= k < l < |plan|
      ensures plan[k] != plan[l]
    {
      if l < |UniversalBlock| {
        assert plan[k] == UniversalBlock[k] && plan[l] == UniversalBlock[l];
      } else if k >= |UniversalBlock| {
        assert plan[k] == block[k - |UniversalBlock|] && plan[l] == block[l - |UniversalBlock|];
      } else {
        assert plan[k] == UniversalBlock[k] && plan[l] == block[l - |UniversalBlock|];
      }
    }
  }

  /** The four tags of the catalogue and the platforms each admits. */
  lemma TagMeaning(p: Platform)
    ensures TagAdmits("-", p)
    ensures TagAdmits("F", p) <==> p == FreeBSD
    ensures TagAdmits("D", p) <==> p == Darwin64
    ensures TagAdmits("d", p) <==> p == Darwin32
  {
  }

  /** Catalogue row `i` and the builder agree on platform `p`: argument `i`
      of the record is the native member of the row's name, and the builder
      converts it exactly when the row's tag admits `p`. */
  predicate RowAgrees(i: Field, p: Platform)
  {
    && NativeName(i) == Entry(i).name
    && (i in PlanOf(p) <==> TagAdmits(Entry(i).tag, p))
  }

  // One lemma per catalogue row: the row as written, and the one builder
  // block that converts its member. The rows are kept apart on purpose:
  // a single quantified lemma makes the solver split 31 rows by four
  // platforms in one proof, far past what it can close, while each row
  // alone is a handful of membership facts.

  lemma Row0(p: Platform) ensures RowAgrees(0, p) {
    TagMeaning(p);
    assert Entry(0) == Member("f_version", "F");
    assert 0 !in UniversalBlock && 0 in FreeBsdBlock && 0 !in Darwin32Block && 0 !in Darwin64Block;
  }

  lemma Row1(p: Platform) ensures RowAgrees(1, p) {
    TagMeaning(p);
    assert Entry(1) == Member("f_otype", "d");
    assert 1 !in UniversalBlock && 1 !in FreeBsdBlock && 1 in Darwin32Block && 1 !in Darwin64Block;
  }

  lemma Row2(p: Platform) ensures RowAgrees(2, p) {
    TagMeaning(p);
    assert Entry(2) == Member("f_oflags", "d");
    assert 2 !in UniversalBlock && 2 !in FreeBsdBlock && 2 in Darwin32Block && 2 !in Darwin64Block;
  }

  lemma Row3(p: Platform) ensures RowAgrees(3, p) {
    TagMeaning(p);
    assert Entry(3) == Member("f_flags", "-");
    assert 3 in UniversalBlock;
  }

  lemma Row4(p: Platform) ensures RowAgrees(4, p) {
    TagMeaning(p);
    assert Entry(4) == Member("f_flags_ext", "D");
    assert 4 !in UniversalBlock && 4 !in FreeBsdBlock && 4 !in Darwin32Block && 4 in Darwin64Block;
  }

  lemma Row5(p: Platform) ensures RowAgrees(5, p) {
    TagMeaning(p);
    assert Entry(5) == Member("f_owner", "-");
    assert 5 in UniversalBlock;
  }

  lemma Row6(p: Platform) ensures RowAgrees(6, p) {
    TagMeaning(p);
    assert Entry(6) == Member("f_fsid", "-");
    assert 6 in UniversalBlock;
  }

  lemma Row7(p: Platform) ensures RowAgrees(7, p) {
    TagMeaning(p);
    assert Entry(7) == Member("f_type", "-");
    assert 7 in UniversalBlock;
  }

  lemma Row8(p: Platform) ensures RowAgrees(8, p) {
    TagMeaning(p);
    assert Entry(8) == Member("f_fssubtype", "D");
    assert 8 !in UniversalBlock && 8 !in FreeBsdBlock && 8 !in Darwin32Block && 8 in Darwin64Block;
  }

  lemma Row9(p: Platform) ensures RowAgrees(9, p) {
    TagMeaning(p);
    assert Entry(9) == Member("f_namemax", "F");
    assert 9 !in UniversalBlock && 9 in FreeBsdBlock && 9 !in Darwin32Block && 9 !in Darwin64Block;
  }

  lemma Row10(p: Platform) ensures RowAgrees(10, p) {
    TagMeaning(p);
    assert Entry(10) == Member("f_fstypename", "-");
    assert 10 in UniversalBlock;
  }

  lemma Row11(p: Platform) ensures RowAgrees(11, p) {
    TagMeaning(p);
    assert Entry(11) == Member("f_mntfromname", "-");
    assert 11 in UniversalBlock;
  }

  lemma Row12(p: Platform) ensures RowAgrees(12, p) {
    TagMeaning(p);
    assert Entry(12) == Member("f_mntonname", "-");
    assert 12 in UniversalBlock;
  }

  lemma Row13(p: Platform) ensures RowAgrees(13, p) {
    TagMeaning(p);
    assert Entry(13) == Member("f_spare", "F");
    assert 13 !in UniversalBlock && 13 in FreeBsdBlock && 13 !in Darwin32Block && 13 !in Darwin64Block;
  }

  lemma Row14(p: Platform) ensures RowAgrees(14, p) {
    TagMeaning(p);
    assert Entry(14) == Member("f_charspare", "F");
    assert 14 !in UniversalBlock && 14 in FreeBsdBlock && 14 !in Darwin32Block && 14 !in Darwin64Block;
  }

  lemma Row15(p: Platform) ensures RowAgrees(15, p) {
    TagMeaning(p);
    assert Entry(15) == Member("f_iosize", "-");
    assert 15 in UniversalBlock;
  }

  lemma Row16(p: Platform) ensures RowAgrees(16, p) {
    TagMeaning(p);
    assert Entry(16) == Member("f_bsize", "-");
    assert 16 in UniversalBlock;
  }

  lemma Row17(p: Platform) ensures RowAgrees(17, p) {
    TagMeaning(p);
    assert Entry(17) == Member("f_blocks", "-");
    assert 17 in UniversalBlock;
  }

  lemma Row18(p: Platform) ensures RowAgrees(18, p) {
    TagMeaning(p);
    assert Entry(18) == Member("f_bavail", "-");
    assert 18 in UniversalBlock;
  }

  lemma Row19(p: Platform) ensures RowAgrees(19, p) {
    TagMeaning(p);
    assert Entry(19) == Member("f_bfree", "-");
    assert 19 in UniversalBlock;
  }

  lemma Row20(p: Platform) ensures RowAgrees(20, p) {
    TagMeaning(p);
    assert Entry(20) == Member("f_ffree", "-");
    assert 20 in UniversalBlock;
  }

  lemma Row21(p: Platform) ensures RowAgrees(21, p) {
    TagMeaning(p);
    assert Entry(21) == Member("f_files", "-");
    assert 21 in UniversalBlock;
  }

  lemma Row22(p: Platform) ensures RowAgrees(22, p) {
    TagMeaning(p);
    assert Entry(22) == Member("f_syncwrites", "F");
    assert 22 !in UniversalBlock && 22 in FreeBsdBlock && 22 !in Darwin32Block && 22 !in Darwin64Block;
  }

  lemma Row23(p: Platform) ensures RowAgrees(23, p) {
    TagMeaning(p);
    assert Entry(23) == Member("f_asyncwrites", "F");
    assert 23 !in UniversalBlock && 23 in FreeBsdBlock && 23 !in Darwin32Block && 23 !in Darwin64Block;
  }

  lemma Row24(p: Platform) ensures RowAgrees(24, p) {
    TagMeaning(p);
    assert Entry(24) == Member("f_syncreads", "F");
    assert 24 !in UniversalBlock && 24 in FreeBsdBlock && 24 !in Darwin32Block && 24 !in Darwin64Block;
  }

  lemma Row25(p: Platform) ensures RowAgrees(25, p) {
    TagMeaning(p);
    assert Entry(25) == Member("f_asyncreads", "F");
    assert 25 !in UniversalBlock && 25 in FreeBsdBlock && 25 !in Darwin32Block && 25 !in Darwin64Block;
  }

  lemma Row26(p: Platform) ensures RowAgrees(26, p) {
    TagMeaning(p);
    assert Entry(26) == Member("f_reserved", "D");
    assert 26 !in UniversalBlock && 26 !in FreeBsdBlock && 26 !in Darwin32Block && 26 in Darwin64Block;
  }

  lemma Row27(p: Platform) ensures RowAgrees(27, p) {
    TagMeaning(p);
    assert Entry(27) == Member("f_reserved1", "d");
    assert 27 !in UniversalBlock && 27 !in FreeBsdBlock && 27 in Darwin32Block && 27 !in Darwin64Block;
  }

  lemma Row28(p: Platform) ensures RowAgrees(28, p) {
    TagMeaning(p);
    assert Entry(28) == Member("f_reserved2", "d");
    assert 28 !in UniversalBlock && 28 !in FreeBsdBlock && 28 in Darwin32Block && 28 !in Darwin64Block;
  }

  lemma Row29(p: Platform) ensures RowAgrees(29, p) {
    TagMeaning(p);
    assert Entry(29) == Member("f_reserved3", "d");
    assert 29 !in UniversalBlock && 29 !in FreeBsdBlock && 29 in Darwin32Block && 29 !in Darwin64Block;
  }

  lemma Row30(p: Platform) ensures RowAgrees(30, p) {
    TagMeaning(p);
    assert Entry(30) == Member("f_reserved4", "d");
    assert 30 !in UniversalBlock && 30 !in FreeBsdBlock && 30 in Darwin32Block && 30 !in Darwin64Block;
  }

  lemma RowsFrom0(i: int, p: Platform)
    requires 0 <= i < 8
    ensures RowAgrees(i, p)
  {
    Row0(p); Row1(p); Row2(p); Row3(p); Row4(p); Row5(p); Row6(p); Row7(p);
    assert i == 0 || i == 1 || i == 2 || i == 3 || i == 4 || i == 5 || i == 6 || i == 7;
  }

  lemma RowsFrom8(i: int, p: Platform)
    requires 8 <= i < 16
    ensures RowAgrees(i, p)
  {
    Row8(p); Row9(p); Row10(p); Row11(p); Row12(p); Row13(p); Row14(p); Row15(p);
    assert i == 8 || i == 9 || i == 10 || i == 11 || i == 12 || i == 13 || i == 14 || i == 15;
  }

  lemma RowsFrom16(i: int, p: Platform)
    requires 16 <= i < 24
    ensures RowAgrees(i, p)
  {
    Row16(p); Row17(p); Row18(p); Row19(p); Row20(p); Row21(p); Row22(p); Row23(p);
    assert i == 16 || i == 17 || i == 18 || i == 19 || i == 20 || i == 21 || i == 22 || i == 23;
  }

  lemma RowsFrom24(i: int, p: Platform)
    requires 24 <= i < 31
    ensures RowAgrees(i, p)
  {
    Row24(p); Row25(p); Row26(p); Row27(p); Row28(p); Row29(p); Row30(p);
    assert i == 24 || i == 25 || i == 26 || i == 27 || i == 28 || i == 29 || i == 30;
  }

  /** The tag table and the conditionally compiled blocks of the builder
      agree row by row, so the record slots the builder fills on a platform
      are exactly the catalogue entries whose tag admits it. */
  lemma {:induction false} CatalogueAgrees(i: int, p: Platform)
    requires 0 <= i < STATFS_MEMBERS
    ensures NativeName(i) == Entry(i).name
    ensures i in PlanOf(p) <==> TagAdmits(Entry(i).tag, p)
  {
    if i < 8 {
      RowsFrom0(i, p);
    } else if i < 16 {
      RowsFrom8(i, p);
    } else if i < 24 {
      RowsFrom16(i, p);
    } else {
      RowsFrom24(i, p);
    }
  }

  lemma LayoutMatchesFreeBsd(s: NativeStatfs)
    requires s.ext.FreeBsdExt?
    ensures forall f: Field :: NativeMember(s, f).Some? <==> f in PlanOf(FreeBSD)
  {
  }

  lemma LayoutMatchesDarwin32(s: NativeStatfs)
    requires s.ext.Darwin32Ext?
    ensures forall f: Field :: NativeMember(s, f).Some? <==> f in PlanOf(Darwin32)
  {
  }

  lemma LayoutMatchesDarwin64(s: NativeStatfs)
    requires s.ext.Darwin64Ext?
    ensures forall f: Field :: NativeMember(s, f).Some? <==> f in PlanOf(Darwin64)
  {
  }

  lemma LayoutMatchesUnknown(s: NativeStatfs)
    requires s.ext.NoExt?
    ensures forall f: Field :: NativeMember(s, f).Some? <==> f in PlanOf(Unknown)
  {
  }

  /** A native struct has exactly the members the builder converts for its
      layout's platform. */
  lemma LayoutMatchesPlan(s: NativeStatfs, f: Field)
    ensures NativeMember(s, f).Some? <==> f in PlanOf(Layout(s.ext))
  {
    match s.ext
    case FreeBsdExt(_, _, _, _, _, _, _, _) => LayoutMatchesFreeBsd(s);
    case Darwin32Ext(_, _, _, _, _, _) => LayoutMatchesDarwin32(s);
    case Darwin64Ext(_, _, _) => LayoutMatchesDarwin64(s);
    case NoExt => LayoutMatchesUnknown(s);
  }
}

=== FILE: record.dfy ===
/** `statfs_fix`, the assembly of the 31 arguments and the call of the
    record constructor: the second half of `build_statfs`. */
module Record {
  import opened Wrappers
  import opened Values
  import opened Schema
  import opened Native
  import opened Plan
  import opened Ownership
  import opened Builder

  /** The slots `statfs_fix` fills with None when the build left them NULL:
      the FreeBSD, 32-bit Darwin and 64-bit Darwin members, block by block,
      exactly the conditionally compiled blocks of the builder. */
  const FixList: seq<Field> := FreeBsdBlock + Darwin32Block + Darwin64Block

  /** `statfs_fix`: every listed slot that is still NULL gets a reference
      to None. */
  function Fix(slots: seq<Option<Obj>>, fs: seq<Field>): (r: seq<Option<Obj>>)
    requires |slots| == STATFS_MEMBERS
    ensures |r| == STATFS_MEMBERS
    decreases |fs|
  {
    if |fs| == 0 then slots
    else Fix(if slots[fs[0]].None? then slots[fs[0] := Some(NoneObj)] else slots, fs[1..])
  }

  /** After the fix a slot holds None exactly when it was NULL and listed;
      every other slot is untouched. */
  lemma {:induction false} FixSlot(slots: seq<Option<Obj>>, fs: seq<Field>, i: Field)
    requires |slots| == STATFS_MEMBERS
    ensures Fix(slots, fs)[i] == (if slots[i].None? && i in fs then Some(NoneObj) else slots[i])
    decreases |fs|
  {
    if |fs| > 0 {
      var next := if slots[fs[0]].None? then slots[fs[0] := Some(NoneObj)] else slots;
      assert Fix(slots, fs) == Fix(next, fs[1..]);
      FixSlot(next, fs[1..], i);
      assert i in fs <==> i == fs[0] || i in fs[1..];
    }
  }

  /** None is never allocated, so the fix changes nothing that
      `statfs_exit` releases. */
  lemma {:induction false} FixKeepsParts(slots: seq<Option<Obj>>, fs: seq<Field>)
    requires |slots| == STATFS_MEMBERS
    ensures SlotParts(Fix(slots, fs)) == SlotParts(slots)
    decreases |fs|
  {
    if |fs| > 0 {
      var next := if slots[fs[0]].None? then slots[fs[0] := Some(NoneObj)] else slots;
      assert Fix(slots, fs) == Fix(next, fs[1..]);
      if slots[fs[0]].None? {
        SlotPartsUpdate(slots, fs[0], Some(NoneObj));
        assert OptParts(slots[fs[0]]) == multiset{} == OptParts(Some(NoneObj));
        var m, m0 := SlotParts(next), SlotParts(slots);
        assert m + multiset{} == m0 + multiset{};
        assert m + multiset{} == m && m0 + multiset{} == m0;
      }
      FixKeepsParts(next, fs[1..]);
    }
  }

  /** Every field is either converted on every platform or fixed. */
  lemma FixCovers(i: Field)
    ensures i in UniversalBlock || i in FixList
  {
  }

  /** The values of the 31 arguments, in argument order
      (`build_statfs_arg`). */
  function Assemble(slots: seq<Option<Obj>>): (vs: seq<Value>)
    requires forall i :: 0 <= i < |slots| ==> slots[i].Some?
    ensures |vs| == |slots|
    ensures forall i :: 0 <= i < |slots| ==> vs[i] == slots[i].value.val
  {
    seq(|slots|, i requires 0 <= i < |slots| => slots[i].value.val)
  }

  /** What `build_statfs` returns (the record, or NULL), the next
      allocation attempt, and the allocation ids it released. */
  datatype Built = Built(record: Option<Obj>, next: nat, freed: multiset<nat>)

  /** What the caller receives ownership of. */
  function Kept(b: Built): multiset<nat>
  {
    OptParts(b.record)
  }

  /** Every field of the platform's plan is a member of the struct. */
  lemma PlanPresent(s: NativeStatfs)
    ensures Present(s, PlanOf(Layout(s.ext)))
  {
    var plan := PlanOf(Layout(s.ext));
    forall k | 0 <= k < |plan| ensures NativeMember(s, plan[k]).Some? {
      LayoutMatchesPlan(s, plan[k]);
    }
  }

  /** The state at the end of the conversion lines (or at the failing
      one). */
  function Converted(s: NativeStatfs, failing: set<nat>, start: nat): (r: Run)
    ensures |r.slots| == STATFS_MEMBERS
  {
    PlanPresent(s);
    RunPlan(s, PlanOf(Layout(s.ext)), failing, Init(start))
  }

  /** The slots after `statfs_fix`. */
  function Fixed(s: NativeStatfs, failing: set<nat>, start: nat): (slots: seq<Option<Obj>>)
    ensures |slots| == STATFS_MEMBERS
  {
    Fix(Converted(s, failing, start).slots, FixList)
  }

  /** The value the record holds for field `i`: the converted member, or
      None when the struct has no such member. */
  function ExpectedSlot(s: NativeStatfs, i: Field): Value
  {
    match NativeMember(s, i)
    case Some(raw) => Convert(raw)
    case None => NoneValue
  }

  function ExpectedRecord(s: NativeStatfs): (vs: seq<Value>)
    ensures |vs| == STATFS_MEMBERS
  {
    seq(STATFS_MEMBERS, i requires 0 <= i < STATFS_MEMBERS => ExpectedSlot(s, i))
  }

  /** Every member of the struct converts. */
  predicate Convertible(s: NativeStatfs)
  {
    PlanDecodes(s, PlanOf(Layout(s.ext)))
  }

  /** The allocation attempts a successful build takes: the plan's, the
      argument tuple and the record. */
  function AllocCount(s: NativeStatfs): nat
  {
    PlanAllocs(s, PlanOf(Layout(s.ext))) + 2
  }

  /** After a successful conversion and the fix, every slot holds the
      value the record promises for it. */
  lemma FixedSlot(s: NativeStatfs, failing: set<nat>, start: nat, i: Field)
    ensures var r := Converted(s, failing, start);
      r.ok ==> Fixed(s, failing, start)[i].Some? && Fixed(s, failing, start)[i].value.val == ExpectedSlot(s, i)
  {
    var plan := PlanOf(Layout(s.ext));
    var r0 := Init(start);
    var r := Converted(s, failing, start);
    PlanPresent(s);
    RunPlanSlot(s, plan, failing, r0, i);
    FixSlot(r.slots, FixList, i);
    FixCovers(i);
    LayoutMatchesPlan(s, i);
    if i in UniversalBlock {
      assert i in plan;
    }
  }

  lemma FixedComplete(s: NativeStatfs, failing: set<nat>, start: nat)
    ensures Converted(s, failing, start).ok ==>
      forall i :: 0 <= i < STATFS_MEMBERS ==> Fixed(s, failing, start)[i].Some?
  {
    forall i | 0 <= i < STATFS_MEMBERS ensures Converted(s, failing, start).ok ==> Fixed(s, failing, start)[i].Some? {
      FixedSlot(s, failing, start, i);
    }
  }

  /** The argument tuple `args`, allocated by attempt `a`, after the 31
      values have moved into it (`TupleMoveItem`): it keeps every value
      alive. */
  function ArgsTuple(slots: seq<Option<Obj>>, a: nat): Obj
    requires forall i :: 0 <= i < |slots| ==> slots[i].Some?
  {
    Obj(Tuple(Assemble(slots)), multiset{a} + SlotParts(slots))
  }

  /** From `PyTuple_New(STATFS_MEMBERS)` on, given the fixed slots and the
      next allocation attempt `a`: the argument tuple takes over all 31
      values (`build_statfs_arg`), then the record constructor is called.
      With `releasesArgs` the tuple is released at `exit`; without it, as
      the source is written, nothing releases it. */
  function Finish(slots: seq<Option<Obj>>, a: nat, failing: set<nat>, releasesArgs: bool): (b: Built)
    requires forall i :: 0 <= i < |slots| ==> slots[i].Some?
    ensures a < b.next
  {
    if a in failing then Built(None, a + 1, SlotParts(slots))
    else
      var args := ArgsTuple(slots, a);
      var c := a + 1;
      if c in failing then Built(None, c + 1, if releasesArgs then args.parts else multiset{})
      else
        var record := Obj(args.val, multiset{c} + SlotParts(slots));
        Built(Some(record), c + 1, if releasesArgs then multiset{a} else multiset{})
  }

  /** The whole of `build_statfs`, releasing or leaking the argument
      tuple. */
  function Build(s: NativeStatfs, failing: set<nat>, start: nat, releasesArgs: bool): (b: Built)
    ensures start <= b.next
  {
    var r := Converted(s, failing, start);
    if !r.ok then Built(None, r.next, Held(r))
    else
      FixedComplete(s, failing, start);
      Finish(Fixed(s, failing, start), r.next, failing, releasesArgs)
  }

  /** `build_statfs` with `Py_DECREF(args)` at `exit`: a failing
      conversion releases everything converted so far (`statfs_exit`); a
      failing constructor call releases the argument tuple and with it all
      31 values; a successful one releases the tuple, whose values the
      record now holds. */
  function BuildStatfs(s: NativeStatfs, failing: set<nat>, start: nat): (b: Built)
    ensures start <= b.next
  {
    Build(s, failing, start, true)
  }

  /** `build_statfs` as written: `args` is never released, so once the
      values have moved into it nothing releases them. */
  function BuildStatfsAsWritten(s: NativeStatfs, failing: set<nat>, start: nat): (b: Built)
    ensures start <= b.next
  {
    Build(s, failing, start, false)
  }

  /** The conversion lines own exactly what they allocated; a successful
      run leaves no scratch entries. */
  lemma ConvertedOwns(s: NativeStatfs, failing: set<nat>, start: nat)
    ensures var r := Converted(s, failing, start);
      && Held(r) == Fresh(start, r.next, failing)
      && (r.ok ==> r.scratch == [] && SlotParts(Fixed(s, failing, start)) == Fresh(start, r.next, failing))
  {
    var p := Layout(s.ext);
    var r0 := Init(start);
    var r := Converted(s, failing, start);
    PlanPresent(s);
    PlanNoDup(p);
    RunPlanOwns(s, PlanOf(p), failing, r0);
    RunPlanOutcome(s, PlanOf(p), failing, r0);
    FixKeepsParts(r.slots, FixList);
  }

  /** The corrected tail releases or hands over every allocation it makes
      and every value it took over, exactly once. */
  lemma FinishOwns(slots: seq<Option<Obj>>, a: nat, failing: set<nat>)
    requires forall i :: 0 <= i < |slots| ==> slots[i].Some?
    ensures var b := Finish(slots, a, failing, true);
      b.freed + Kept(b) == SlotParts(slots) + Fresh(a, b.next, failing)
  {
    FreshOne(a, failing);
    FreshOne(a + 1, failing);
    FreshSplit(a, a + 1, a + 2, failing);
  }

  /** Every allocation `build_statfs` makes is either released before it
      returns or owned by the record it returns, exactly once. */
  lemma BuildStatfsOwns(s: NativeStatfs, failing: set<nat>, start: nat)
    ensures var b := BuildStatfs(s, failing, start);
      b.freed + Kept(b) == Fresh(start, b.next, failing)
  {
    var r := Converted(s, failing, start);
    var b := BuildStatfs(s, failing, start);
    ConvertedOwns(s, failing, start);
    if r.ok {
      var slots := Fixed(s, failing, start);
      FixedComplete(s, failing, start);
      assert b == Finish(slots, r.next, failing, true);
      FinishOwns(slots, r.next, failing);
      FreshSplit(start, r.next, b.next, failing);
      Accumulate(multiset{}, SlotParts(slots), b.freed + Kept(b), Fresh(start, r.next, failing), Fresh(r.next, b.next, failing));
    }
  }

  /** After a successful conversion the argument values are the expected
      record, field by field. */
  lemma FixedValues(s: NativeStatfs, failing: set<nat>, start: nat)
    ensures Converted(s, failing, start).ok ==>
      && (forall i :: 0 <= i < STATFS_MEMBERS ==> Fixed(s, failing, start)[i].Some?)
      && Assemble(Fixed(s, failing, start)) == ExpectedRecord(s)
  {
    FixedComplete(s, failing, start);
    if Converted(s, failing, start).ok {
      var vs := Assemble(Fixed(s, failing, start));
      forall i | 0 <= i < STATFS_MEMBERS ensures vs[i] == ExpectedRecord(s)[i] {
        FixedSlot(s, failing, start, i);
      }
    }
  }

  /** The conversion lines succeed exactly when every member converts and
      each of their allocation attempts succeeds. */
  lemma ConvertedOutcome(s: NativeStatfs, failing: set<nat>, start: nat)
    ensures var r := Converted(s, failing, start);
      var n := PlanAllocs(s, PlanOf(Layout(s.ext)));
      && (r.ok <==> Convertible(s) && NoFail(start, start + n, failing))
      && r.next <= start + n
      && (r.ok ==> r.next == start + n)
  {
    PlanPresent(s);
    RunPlanOutcome(s, PlanOf(Layout(s.ext)), failing, Init(start));
  }

  /** On a successful conversion, the build continues with the tail. */
  lemma BuildContinues(s: NativeStatfs, failing: set<nat>, start: nat, releasesArgs: bool)
    ensures var r := Converted(s, failing, start);
      r.ok ==>
        && (forall i :: 0 <= i < STATFS_MEMBERS ==> Fixed(s, failing, start)[i].Some?)
        && Build(s, failing, start, releasesArgs) == Finish(Fixed(s, failing, start), r.next, failing, releasesArgs)
  {
    FixedComplete(s, failing, start);
  }

  /** The tail returns a record exactly when the argument tuple and the
      record are both allocated; the record holds the 31 values. */
  lemma FinishOutcome(slots: seq<Option<Obj>>, a: nat, failing: set<nat>, releasesArgs: bool)
    requires forall i :: 0 <= i < |slots| ==> slots[i].Some?
    ensures var b := Finish(slots, a, failing, releasesArgs);
      && (b.record.Some? <==> NoFail(a, a + 2, failing))
      && b.next <= a + 2
      && (b.record.Some? ==> b.next == a + 2 && b.record.value.val == Tuple(Assemble(slots)))
  {
  }

  /** `build_statfs` returns a record exactly when every member converts
      and every allocation attempt succeeds; the record then holds each
      member's converted value, or None for a member the layout lacks. */
  lemma BuildStatfsOutcome(s: NativeStatfs, failing: set<nat>, start: nat)
    ensures var b := BuildStatfs(s, failing, start);
      && (b.record.Some? <==> Convertible(s) && NoFail(start, start + AllocCount(s), failing))
      && b.next <= start + AllocCount(s)
      && (b.record.Some? ==> b.next == start + AllocCount(s) && b.record.value.val == Tuple(ExpectedRecord(s)))
  {
    var r := Converted(s, failing, start);
    var n := PlanAllocs(s, PlanOf(Layout(s.ext)));
    ConvertedOutcome(s, failing, start);
    NoFailSplit(start, start + n, start + n + 2, failing);
    if r.ok {
      BuildContinues(s, failing, start, true);
      FinishOutcome(Fixed(s, failing, start), r.next, failing, true);
      FixedValues(s, failing, start);
    }
  }

  /** The source as written returns the same record as the corrected
      builder and takes the same allocation attempts; only what it
      releases differs. */
  lemma AsWrittenSameRecord(s: NativeStatfs, failing: set<nat>, start: nat)
    ensures BuildStatfsAsWritten(s, failing, start).record == BuildStatfs(s, failing, start).record
    ensures BuildStatfsAsWritten(s, failing, start).next == BuildStatfs(s, failing, start).next
  {
  }

  /** The tail as written releases nothing: against the corrected tail it
      loses the argument tuple on success and the tuple with every value
      it took over when the constructor fails. On success the lost tuple
      holds the record's 31 values and keeps alive everything the record
      keeps alive but the record itself: the constructor took its own
      references, so the values outlive the record. */
  lemma FinishAsWrittenLeaks(slots: seq<Option<Obj>>, a: nat, failing: set<nat>)
    requires forall i :: 0 <= i < |slots| ==> slots[i].Some?
    requires a !in failing
    ensures var aw, b := Finish(slots, a, failing, false), Finish(slots, a, failing, true);
      && aw.freed == multiset{}
      && (b.record.Some? ==> aw.freed + Kept(aw) + multiset{a} == b.freed + Kept(b))
      && (b.record.None? ==> b.freed == multiset{a} + SlotParts(slots))
      && (aw.record.Some? ==>
            && ArgsTuple(slots, a).val == aw.record.value.val
            && ArgsTuple(slots, a).parts == (Kept(aw) - multiset{a + 1}) + multiset{a})
  {
    var aw := Finish(slots, a, failing, false);
    if aw.record.Some? {
      assert (multiset{a + 1} + SlotParts(slots)) - multiset{a + 1} == SlotParts(slots);
    }
  }

  /** On a build where nothing fails, the source as written keeps back
      from the corrected builder exactly the argument tuple's allocation. */
  lemma AsWrittenKeepsArgs(s: NativeStatfs, start: nat)
    requires Convertible(s)
    ensures var aw, b := BuildStatfsAsWritten(s, {}, start), BuildStatfs(s, {}, start);
      && aw.record.Some? && aw.next == b.next && start + 2 <= aw.next
      && aw.freed + Kept(aw) + multiset{aw.next - 2} == b.freed + Kept(b)
  {
    var r := Converted(s, {}, start);
    BuildStatfsOutcome(s, {}, start);
    ConvertedOutcome(s, {}, start);
    BuildContinues(s, {}, start, true);
    BuildContinues(s, {}, start, false);
    FinishOutcome(Fixed(s, {}, start), r.next, {}, true);
    FinishAsWrittenLeaks(Fixed(s, {}, start), r.next, {});
  }

  /** As written, a successful `build_statfs` never releases the argument
      tuple: its allocation is neither released nor owned by the record. */
  lemma ArgsLeakOnSuccess(s: NativeStatfs, start: nat)
    requires Convertible(s)
    ensures var b := BuildStatfsAsWritten(s, {}, start);
      && b.record.Some?
      && b.freed + Kept(b) + multiset{b.next - 2} == Fresh(start, b.next, {})
      && b.freed + Kept(b) != Fresh(start, b.next, {})
  {
    var aw := BuildStatfsAsWritten(s, {}, start);
    AsWrittenKeepsArgs(s, start);
    BuildStatfsOwns(s, {}, start);
    var m := aw.freed + Kept(aw);
    assert (m + multiset{aw.next - 2})[aw.next - 2] == m[aw.next - 2] + 1;
  }

  /** As written, a build whose conversions and argument tuple succeed
      but whose constructor call fails returns NULL and releases nothing. */
  lemma AsWrittenConstructorFails(s: NativeStatfs, failing: set<nat>, start: nat, n: nat)
    requires Convertible(s) && n == PlanAllocs(s, PlanOf(Layout(s.ext)))
    requires NoFail(start, start + n + 1, failing) && start + n + 1 in failing
    ensures var b := BuildStatfsAsWritten(s, failing, start);
      b.record.None? && b.next == start + n + 2 && b.freed == multiset{}
  {
    NoFailSplit(start, start + n, start + n + 1, failing);
    ConvertedOutcome(s, failing, start);
    var r := Converted(s, failing, start);
    assert r.ok && r.next == start + n;
    BuildContinues(s, failing, start, false);
  }

  /** As written, when the record constructor is the first allocation to
      fail nothing is released: the argument tuple and all 31 values it
      took over are lost. */
  lemma ArgsLeakOnConstructorFailure(s: NativeStatfs, failing: set<nat>, start: nat)
    requires Convertible(s)
    requires NoFail(start, start + AllocCount(s) - 1, failing) && start + AllocCount(s) - 1 in failing
    ensures var b := BuildStatfsAsWritten(s, failing, start);
      && b.record.None?
      && b.freed + Kept(b) == multiset{}
      && b.next - 2 in Fresh(start, b.next, failing)
  {
    var n := PlanAllocs(s, PlanOf(Layout(s.ext)));
    AsWrittenConstructorFails(s, failing, start, n);
    FreshCount(start, start + n + 2, failing, start + n);
  }

  /** An array member becomes a tuple as long as its C array: two for
      `f_fsid` and `f_reserved2`, four for `f_reserved4`, and `rcnt`, at
      most the eight the scratch array holds, for the 64-bit Darwin
      `f_reserved`. */
  lemma ArraySlotSizes(s: NativeStatfs, f: Field)
    requires NativeMember(s, f).Some? && NativeMember(s, f).value.Words?
    ensures ExpectedRecord(s)[f].Tuple?
    ensures |ExpectedRecord(s)[f].items| == |NativeMember(s, f).value.xs|
    ensures f == RESERVED ==> |ExpectedRecord(s)[f].items| <= 8
    ensures f != RESERVED ==> |ExpectedRecord(s)[f].items| == (if f == RESERVED4 then 4 else 2)
  {
  }

  /** A text member is the string before the buffer's terminating NUL,
      which lies inside the buffer. */
  lemma TextSlotEndsAtNul(s: NativeStatfs, f: Field)
    requires NativeMember(s, f).Some? && NativeMember(s, f).value.Chars?
    ensures var buf := NativeMember(s, f).value.buf;
      && ExpectedRecord(s)[f] == Text(CString(buf))
      && |CString(buf)| < |buf| && buf[|CString(buf)|] == 0
  {
  }

  /** The cross-check of the tag table against the builder: a slot of the
      record is not None exactly when its index is one of the platform's
      valid indices. */
  lemma {:induction false} RecordMatchesCatalogue(s: NativeStatfs, i: Field)
    ensures ExpectedRecord(s)[i] != NoneValue <==> i in ValidIndices(Layout(s.ext))
  {
    LayoutMatchesPlan(s, i);
    CatalogueAgrees(i, Layout(s.ext));
    ValidIndicesMembers(Layout(s.ext), i);
  }

  /** Every record `build_statfs` returns carries a value exactly in the
      fields `valid_indices` lists for its platform. */
  lemma {:induction false} BuiltMatchesCatalogue(s: NativeStatfs, failing: set<nat>, start: nat, i: Field)
    ensures var b := BuildStatfs(s, failing, start);
      b.record.Some? ==>
        && b.record.value.val.Tuple?
        && |b.record.value.val.items| == STATFS_MEMBERS
        && (b.record.value.val.items[i] != NoneValue <==> i in ValidIndices(Layout(s.ext)))
  {
    BuildStatfsOutcome(s, failing, start);
    RecordMatchesCatalogue(s, i);
  }
}

=== FILE: schema.dfy ===
/** The field catalogue of the statfs record and the platform filter that
    selects the fields the running platform actually supplies. */
module Schema {

  /** The native `struct statfs` layout the extension is compiled for. */
  datatype Platform = FreeBSD | Darwin64 | Darwin32 | Unknown

  /** One catalogue entry: the record field name and its availability tag
      (`-` universal, `F` FreeBSD, `d` Darwin 32-bit inode, `D` Darwin
      64-bit inode). */
  datatype Member = Member(name: string, tag: string)

  const STATFS_MEMBERS: nat := 31

  /** Entry `i` of the catalogue `statfs_member`, in record order. */
  function Entry(i: nat): Member
    requires i < STATFS_MEMBERS
  {
    match i
    case 0  => Member("f_version",      "F")
    case 1  => Member("f_otype",        "d")
    case 2  => Member("f_oflags",       "d")
    case 3  => Member("f_flags",        "-")
    case 4  => Member("f_flags_ext",    "D")
    case 5  => Member("f_owner",        "-")
    case 6  => Member("f_fsid",         "-")
    case 7  => Member("f_type",         "-")
    case 8  => Member("f_fssubtype",    "D")
    case 9  => Member("f_namemax",      "F")
    case 10 => Member("f_fstypename",   "-")
    case 11 => Member("f_mntfromname",  "-")
    case 12 => Member("f_mntonname",    "-")
    case 13 => Member("f_spare",        "F")
    case 14 => Member("f_charspare",    "F")
    case 15 => Member("f_iosize",       "-")
    case 16 => Member("f_bsize",        "-")
    case 17 => Member("f_blocks",       "-")
    case 18 => Member("f_bavail",       "-")
    case 19 => Member("f_bfree",        "-")
    case 20 => Member("f_ffree",        "-")
    case 21 => Member("f_files",        "-")
    case 22 => Member("f_syncwrites",   "F")
    case 23 => Member("f_asyncwrites",  "F")
    case 24 => Member("f_syncreads",    "F")
    case 25 => Member("f_asyncreads",   "F")
    case 26 => Member("f_reserved",     "D")
    case 27 => Member("f_reserved1",    "d")
    case 28 => Member("f_reserved2",    "d")
    case 29 => Member("f_reserved3",    "d")
    case _  => Member("f_reserved4",    "d")
  }

  /** Every catalogue tag is one of the four availability tags. */
  lemma EntryTagKnown(i: nat)
    requires i < STATFS_MEMBERS
    ensures Entry(i).tag in {"-", "F", "d", "D"}
  {
  }

  /** No two catalogue entries share a name: the field names the
      `namedtuple` class is built from are distinct. */
  lemma EntryNamesDistinct(i: nat, j: nat)
    requires i < j < STATFS_MEMBERS
    ensures Entry(i).name != Entry(j).name
  {
  }

  /** The `model` label exported for the platform. */
  function ModelName(p: Platform): (name: string)
    ensures name == "unknown" <==> p == Unknown
  {
    match p
    case FreeBSD => "FreeBSD"
    case Darwin64 => "Darwin64"
    case Darwin32 => "Darwin32"
    case Unknown => "unknown"
  }

  /** Different platforms export different labels, so the label identifies
      the layout. */
  lemma ModelNameInjective(p: Platform, q: Platform)
    ensures ModelName(p) == ModelName(q) <==> p == q
  {
  }

  /** One tag character selects the field on this platform. */
  predicate Admits(c: char, p: Platform)
  {
    || c == '-'
    || (p == FreeBSD && c == 'F')
    || (p == Darwin64 && c == 'D')
    || (p == Darwin32 && c == 'd')
  }

  /** Some character of the tag selects the field on this platform. */
  predicate TagAdmits(tag: string, p: Platform)
  {
    |tag| > 0 && (Admits(tag[0], p) || TagAdmits(tag[1..], p))
  }

  /** Schema index `i` is one of the platform's valid fields. */
  predicate IsValid(i: int, p: Platform)
  {
    0 <= i < STATFS_MEMBERS && TagAdmits(Entry(i).tag, p)
  }

  /** The valid indices from `i` on, in increasing order. */
  function ValidFrom(p: Platform, i: nat): (r: seq<nat>)
    requires i <= STATFS_MEMBERS
    decreases STATFS_MEMBERS - i
  {
    if i == STATFS_MEMBERS then []
    else if TagAdmits(Entry(i).tag, p) then [i] + ValidFrom(p, i + 1)
    else ValidFrom(p, i + 1)
  }

  /** The platform's `valid_indices`. */
  function ValidIndices(p: Platform): seq<nat>
  {
    ValidFrom(p, 0)
  }

  /** `ValidFrom(p, j)` lists exactly the valid indices from `j` on. */
  lemma {:induction false} ValidFromMembers(p: Platform, j: nat, i: int)
    requires j <= STATFS_MEMBERS
    ensures i in ValidFrom(p, j) <==> j <= i && IsValid(i, p)
    decreases STATFS_MEMBERS - j
  {
    if j < STATFS_MEMBERS {
      ValidFromMembers(p, j + 1, i);
      var rest := ValidFrom(p, j + 1);
      if TagAdmits(Entry(j).tag, p) {
        assert ValidFrom(p, j) == [j] + rest;
        assert i in [j] + rest <==> i == j || i in rest;
      } else {
        assert ValidFrom(p, j) == rest;
      }
    }
  }

  /** Every index of the sequence lies in `lo` up to the catalogue's end,
      and the indices increase strictly. */
  predicate AscendingFrom(xs: seq<nat>, lo: nat)
  {
    && (forall a :: 0 <= a < |xs| ==> lo <= xs[a] < STATFS_MEMBERS)
    && (forall a, b :: 0 <= a < b < |xs| ==> xs[a] < xs[b])
  }

  lemma AscendingCons(x: nat, xs: seq<nat>)
    requires x < STATFS_MEMBERS && AscendingFrom(xs, x + 1)
    ensures AscendingFrom([x] + xs, x)
  {
  }

  /** `ValidFrom(p, j)` is strictly increasing and starts at `j` or later. */
  lemma {:induction false} ValidFromAscending(p: Platform, j: nat)
    requires j <= STATFS_MEMBERS
    ensures AscendingFrom(ValidFrom(p, j), j)
    decreases STATFS_MEMBERS - j
  {
    if j < STATFS_MEMBERS {
      ValidFromAscending(p, j + 1);
      var rest := ValidFrom(p, j + 1);
      if TagAdmits(Entry(j).tag, p) {
        assert ValidFrom(p, j) == [j] + rest;
        AscendingCons(j, rest);
      } else {
        assert ValidFrom(p, j) == rest;
      }
    }
  }

  /** `valid_indices` lists exactly the fields whose tag admits the
      platform. */
  lemma {:induction false} ValidIndicesMembers(p: Platform, i: int)
    ensures i in ValidIndices(p) <==> IsValid(i, p)
  {
    ValidFromMembers(p, 0, i);
  }

  /** No catalogue tag holds a NUL before its end: the scan of a tag stops
      at its terminator, not inside it. */
  lemma EntryTagHasNoNul(i: nat)
    requires i < STATFS_MEMBERS
    ensures '\0' !in Entry(i).tag
  {
  }

  /** The tag scan of `prepare_statfs`: walk the tag up to its terminator
      and stop at the first character that admits the platform. The
      result is that character, or NUL when there is none. */
  method ScanTag(tag: string, p: Platform) returns (c: char)
    requires '\0' !in tag
    ensures c != '\0' <==> TagAdmits(tag, p)
    ensures c != '\0' ==> c in tag && Admits(c, p)
  {
    var k := 0;
    while k < |tag|
      invariant 0 <= k <= |tag|
      invariant TagAdmits(tag, p) <==> TagAdmits(tag[k..], p)
      decreases |tag| - k
    {
      assert tag[k..][1..] == tag[k + 1..];
      if Admits(tag[k], p) {
        return tag[k];
      }
      k := k + 1;
    }
    return '\0';
  }

  /** One step of the `valid` pass: the valid indices from `i` on are
      index `i` when its tag admits the platform, then those from `i + 1`. */
  lemma ValidStep(p: Platform, i: nat, indices: seq<nat>)
    requires i < STATFS_MEMBERS
    ensures indices + ValidFrom(p, i)
         == (if TagAdmits(Entry(i).tag, p) then indices + [i] else indices) + ValidFrom(p, i + 1)
  {
    var rest := ValidFrom(p, i + 1);
    if TagAdmits(Entry(i).tag, p) {
      assert ValidFrom(p, i) == [i] + rest;
      assert indices + ([i] + rest) == (indices + [i]) + rest;
    } else {
      assert ValidFrom(p, i) == rest;
    }
  }

  /** The state of the `valid` pass before entry `i`: the fields chosen so
      far, with the valid indices still to come. */
  predicate Prepared(p: Platform, i: nat, names: seq<string>, indices: seq<nat>)
  {
    && i <= STATFS_MEMBERS
    && indices + ValidFrom(p, i) == ValidIndices(p)
    && |names| == |indices| <= i
    && forall k :: 0 <= k < |indices| ==> indices[k] < i && names[k] == Entry(indices[k]).name
  }

  /** Entry `i` of the `valid` pass: keep its name and index when its tag
      admits the platform. */
  method PrepareEntry(p: Platform, i: nat, names: seq<string>, indices: seq<nat>)
    returns (names': seq<string>, indices': seq<nat>)
    requires i < STATFS_MEMBERS && Prepared(p, i, names, indices)
    ensures Prepared(p, i + 1, names', indices')
    ensures indices' == indices || indices' == indices + [i]
  {
    EntryTagHasNoNul(i);
    var c := ScanTag(Entry(i).tag, p);
    ValidStep(p, i, indices);
    if c != '\0' {
      names', indices' := names + [Entry(i).name], indices + [i];
    } else {
      names', indices' := names, indices;
    }
  }

  /** The `valid` pass of `prepare_statfs`: the names and indices of the
      fields the platform supplies, in catalogue order. */
  method PrepareValid(p: Platform) returns (names: seq<string>, indices: seq<nat>)
    ensures indices == ValidIndices(p)
    ensures |names| == |indices| <= STATFS_MEMBERS
    ensures forall k :: 0 <= k < |indices| ==> indices[k] < STATFS_MEMBERS && names[k] == Entry(indices[k]).name
  {
    names, indices := [], [];
    var i := 0;
    while i < STATFS_MEMBERS
      invariant Prepared(p, i, names, indices)
      decreases STATFS_MEMBERS - i
    {
      names, indices := PrepareEntry(p, i, names, indices);
      i := i + 1;
    }
  }

}

=== FILE: values.dfy ===
/** The Python-level values a record slot can hold, and the C conversions
    that produce them from native data. */
module Values {

  newtype byte = x: int | 0 <= x < 256

  /** The integer widths of an LP64 target, the only ones modelled:
      `unsigned long` and `unsigned long long` are 64 bits wide and `long`
      is 64-bit signed. */
  const TWO_64: int := 0x1_0000_0000_0000_0000
  const TWO_63: int := 0x8000_0000_0000_0000

  /** A Python value the extension builds: an `int` from an unsigned or a
      signed C value, a `str` (held as its UTF-8 bytes), a tuple (a record
      is the tuple of its fields), a list of records, or `None`. */
  datatype Value =
    | U64(u: int)
    | I64(i: int)
    | Text(utf8: seq<byte>)
    | Tuple(items: seq<Value>)
    | List(elems: seq<Value>)
    | NoneValue

  /** The C cast to a 64-bit unsigned type: reduction modulo 2^64. */
  function ToUnsigned64(x: int): (r: int)
    ensures 0 <= r < TWO_64
    ensures (x - r) % TWO_64 == 0
    ensures 0 <= x < TWO_64 ==> r == x
  {
    x % TWO_64
  }

  /** The C cast to `long`: two's-complement wrap into [-2^63, 2^63). */
  function ToSigned64(x: int): (r: int)
    ensures -TWO_63 <= r < TWO_63
    ensures (x - r) % TWO_64 == 0
    ensures -TWO_63 <= x < TWO_63 ==> r == x
  {
    var u := x % TWO_64;
    if u < TWO_63 then u else u - TWO_64
  }

  /** The bytes `PyUnicode_FromString` reads: everything before the first
      NUL of the buffer. */
  function CString(buf: seq<byte>): (r: seq<byte>)
    ensures |r| <= |buf| && r == buf[..|r|]
    ensures forall k :: 0 <= k < |r| ==> r[k] != 0
    ensures |r| < |buf| ==> buf[|r|] == 0
  {
    if |buf| == 0 || buf[0] == 0 then []
    else [buf[0]] + CString(buf[1..])
  }

  predicate IsContinuation(b: byte)
  {
    0x80 <= b <= 0xBF
  }

  /** Well-formed UTF-8 (Table 3-7 of the Unicode Standard): what the strict
      decoder behind `PyUnicode_FromString` accepts. Overlong forms,
      surrogates and code points above U+10FFFF are rejected. */
  predicate ValidUtf8(b: seq<byte>)
    decreases |b|
  {
    if |b| == 0 then true
    else if b[0] <= 0x7F then ValidUtf8(b[1..])
    else if 0xC2 <= b[0] <= 0xDF then
      |b| >= 2 && IsContinuation(b[1]) && ValidUtf8(b[2..])
    else if b[0] == 0xE0 then
      |b| >= 3 && 0xA0 <= b[1] <= 0xBF && IsContinuation(b[2]) && ValidUtf8(b[3..])
    else if 0xE1 <= b[0] <= 0xEC || 0xEE <= b[0] <= 0xEF then
      |b| >= 3 && IsContinuation(b[1]) && IsContinuation(b[2]) && ValidUtf8(b[3..])
    else if b[0] == 0xED then
      |b| >= 3 && 0x80 <= b[1] <= 0x9F && IsContinuation(b[2]) && ValidUtf8(b[3..])
    else if b[0] == 0xF0 then
      |b| >= 4 && 0x90 <= b[1] <= 0xBF && IsContinuation(b[2]) && IsContinuation(b[3])
      && ValidUtf8(b[4..])
    else if 0xF1 <= b[0] <= 0xF3 then
      |b| >= 4 && IsContinuation(b[1]) && IsContinuation(b[2]) && IsContinuation(b[3])
      && ValidUtf8(b[4..])
    else if b[0] == 0xF4 then
      |b| >= 4 && 0x80 <= b[1] <= 0x8F && IsContinuation(b[2]) && IsContinuation(b[3])
      && ValidUtf8(b[4..])
    else false
  }

  /** Plain ASCII text always decodes. */
  lemma {:induction false} AsciiIsValidUtf8(b: seq<byte>)
    requires forall k :: 0 <= k < |b| ==> b[k] <= 0x7F
    ensures ValidUtf8(b)
    decreases |b|
  {
    if |b| > 0 {
      AsciiIsValidUtf8(b[1..]);
    }
  }
}

=== FILE: wrappers.dfy ===
/** The optional-value type used for NULL-or-object results. */
module Wrappers {

  datatype Option<+T> = None | Some(value: T)
}
